=== FILE: README.md ===
# CAUTC link and size model

CAUTC is a command-line tool. It reads a text file, finds the web links in it, downloads
every page, and reports each page's size and download time. It can also follow the links it
finds on those pages, down to a given depth, and save the report as text or CSV.

This project models the pure core of that tool in Dafny and proves properties about it.

- **Link extraction** (`link_processor.dfy`, on top of `url_regex.dfy`).
  - The text is cut into lines as `bufio.ScanLines` does.
  - Each line is searched with the pattern `https?://[^\s"']+`. In Go's RE2, `\s` is tab,
    newline, form feed, carriage return and space. The search is written as an explicit
    scanner: at each position it tries `https://`, then `http://`, then a maximal run of
    non-space, non-quote characters. Otherwise it moves one character on. After a match it
    resumes at the match's end. For this pattern, RE2's leftmost-first search picks the
    longest match at the leftmost possible start, so this is the same search.
  - Every match is normalised: `https://` is added when there is no scheme, the word is
    parsed, and it is dropped when parsing fails or the host is empty. Otherwise it is written
    back with the scheme set to `https`.
- **Measuring** (`site_processor.dfy`).
  - A page's byte count is scaled to the chosen unit: bytes, KB (`/1024`), MB (`/1048576`),
    or "characters". For characters the byte count is reported unchanged, as the code does.
  - A failed download is recorded with size `-1`.
  - The `processURL` walk is a depth-bounded, pre-order, sequential recursion. A page is
    measured, then (while depth remains and a second download succeeds) the links found on it
    are walked one level deeper. The pre-order is stated per visit: a visit's subtree runs up
    to the next visit at its level or above (`LevelEnd`), and the visits one level down inside
    it are exactly the links the walk follows from that visit (`Children`), in order. A second
    property (`Steps`) says the record starts at the first level and never goes down more than
    one level from one visit to the next, so a subtree holds nothing but the walks of those
    links.
- **Output** (`export.dfy`): the unit label, the TXT line format, and the CSV header and
  records. Each comes with a reader that gets the values back: from a TXT line the size, the
  unit label and the duration text; from a CSV record the URL, the size and the duration text.
- **Flag checks** (`cli.dfy`): the start of `main`. The path must be given, `--size`
  (lower-cased) must name a unit, the file must be readable, and at least one link must be
  found. Each failure is a `Failure` value.
- **Helpers**: `text.dfy` holds character classes, ASCII lower-casing, counting and search.
  `decimal.dfy` holds `%d` formatting and its parser. `wrappers.dfy` holds `Option` and
  `Result`.

The outside world enters only as function parameters:

| Parameter | Stands for |
|---|---|
| `Parser` | `url.Parse` with `Hostname` |
| `Reader` | `FindAndReadFile` |
| `fetch` | the first download's byte count, or failure |
| `clock` | the measured duration |
| `refetch` | the second download's text, or failure |
| `DurationText` | `Duration.String` |

The parser returns the scheme, the authority, the host name and the rest of the URL.
`Render` writes them back as `URL.String()` does for a URL that has a host.

## Model

| member | source | states |
|---|---|---|
| UrlRegex.MatchEnd | link_processor.go:34 | a match at a position ends after `http://` or `https://` and at least one more character, and it ends at the end of the line or before a space or quote (greedy) |
| UrlRegex.MatchEndSound | link_processor.go:34 | what the scanner reports at a position is a word of `https?://[^\s"']+` |
| UrlRegex.MatchEndNone | link_processor.go:34 | the scanner finds nothing at a position exactly when no word of the pattern starts there |
| UrlRegex.MatchEndLongest | link_processor.go:34 | every word of the pattern starting at a position is no longer than the reported match, so matches are maximal |
| UrlRegex.FindAll | link_processor.go:38 | every string `FindAllString` returns starts with a scheme, has at least one character after `://`, and holds no space, tab, newline, carriage return, form feed or quote |
| UrlRegex.SpansAreMatches | link_processor.go:34-38 | each reported match is exactly the match the pattern makes at its start |
| UrlRegex.SpansOrdered | link_processor.go:38 | the matches do not overlap and come in text order |
| UrlRegex.SpansComplete | link_processor.go:38 | no match is skipped: every position where the pattern could match lies inside a reported match |
| UrlRegex.NoSchemeNoMatch | link_processor.go:34-38 | a line without `http://` or `https://` has no matches |
| UrlRegex.FindAllSplit | link_processor.go:34-38 | a stop character splits a text: its matches are those before the stop followed by those after it |
| UrlRegex.TextsShift | link_processor.go:38 | scanning a suffix gives the same match texts as scanning the whole text from that point |
| UrlRegex.FindAllDropLast | link_processor.go:34-38 | a trailing stop character, such as the carriage return removed by `dropCR`, never changes the matches |
| LinkProcessor.WithScheme | link_processor.go:50-52 | the result always starts with a scheme; a word that already has one is left unchanged, and any other word gets exactly `https://` in front |
| LinkProcessor.WithSchemeIdempotent | link_processor.go:50-52 | adding the scheme twice is the same as adding it once |
| LinkProcessor.CandidateKeepsScheme | link_processor.go:34-52 | nothing is ever put in front of a match of the link pattern |
| LinkProcessor.NormalizeLink | link_processor.go:49-62 | the result is empty exactly when parsing fails or the host name is empty; otherwise it starts with `https://` |
| LinkProcessor.NormalizeUpgradesHttp | link_processor.go:54-61 | an `http://` link that parses back to itself comes out as the same link with the `https` scheme |
| LinkProcessor.NormalizeKeepsHttps | link_processor.go:54-61 | an `https://` link that parses back to itself comes out unchanged |
| LinkProcessor.NormalizeAll | link_processor.go:39-43 | every kept link is non-empty and starts with `https://`; at most one link per match |
| LinkProcessor.NormalizeAllAppend | link_processor.go:39-43 | normalising two runs of matches is normalising each, in order |
| LinkProcessor.NormalizeAllMembers | link_processor.go:39-43 | a link is kept exactly when it is the non-empty normal form of some match |
| LinkProcessor.Lines | link_processor.go:32-37 | no token of the line scanner contains a newline |
| LinkProcessor.LinesCount | link_processor.go:32-37 | there is one token per newline, plus one for a last line without a newline |
| LinkProcessor.ExtractAndNormalizeLinks | link_processor.go:30-47 | every extracted link is non-empty and starts with `https://`; extraction has no error result |
| LinkProcessor.ExtractScansWholeText | link_processor.go:30-47 | line-by-line extraction gives the same links, in the same order, as normalising the matches of the whole text |
| LinkProcessor.ExtractMembers | link_processor.go:30-47 | a link is extracted exactly when it is the non-empty normal form of a match in the text |
| LinkProcessor.ExtractNoScheme | link_processor.go:30-47 | text with no `http://` or `https://` yields no links |
| LinkProcessor.ProcessFile | link_processor.go:64-72 | a read error is passed on; otherwise the links of the file's text are returned, each starting with `https://` |
| SiteProcessor.ScaleSize | site_processor.go:70-78 | bytes and characters report the byte count; KB and MB report the largest whole number of KiB or MiB not above it |
| SiteProcessor.ScaleSizeExamples | site_processor.go:70-78 | 2048 bytes are 2 KB; 500 KiB are 0 MB; 3 MiB less one byte are 2 MB |
| SiteProcessor.ProcessSite | site_processor.go:61-81 | the result keeps the URL and duration; the size is `-1` exactly when the download failed, and otherwise lies between 0 and the byte count |
| SiteProcessor.SentinelIsDistinct | site_processor.go:66-80 | a successful size never equals the failure sentinel, whatever the unit |
| SiteProcessor.VisitUrl | site_processor.go:107-135 | nothing is recorded beyond the depth limit; otherwise the page's own result comes first, and every recorded depth lies between the current level and the limit |
| SiteProcessor.VisitEach | site_processor.go:131-139 | a level records at least one result per URL, all within the depth range, and nothing beyond the limit |
| SiteProcessor.ProcessSites | site_processor.go:105-139 | a depth below 1 records nothing; otherwise there is at least one result per input URL |
| SiteProcessor.VisitUrlShape | site_processor.go:114-133 | after a page's own result come only results from deeper levels |
| SiteProcessor.VisitEachTops | site_processor.go:123-139 | the results recorded at the starting level are exactly the given URLs, once each and in order |
| SiteProcessor.VisitEachAppend | site_processor.go:131-139 | walking two lists one after the other records the two walks in order |
| SiteProcessor.LastLevel | site_processor.go:109-123 | at the last level each URL is measured once, in order, and no link is followed |
| SiteProcessor.DepthOne | site_processor.go:108-139 | with depth 1 there is one result per URL, in input order, each that URL's measurement |
| SiteProcessor.RefetchFailure | site_processor.go:123-128 | when the second download fails, the page's own result is kept and none of its links are followed |
| SiteProcessor.NestedInLinkOrder | site_processor.go:123-133 | after a page's own result, the next level holds exactly the links found on the page, in the order they were found |
| SiteProcessor.VisitUrlMeasured | site_processor.go:114-115 | every recorded result is the measurement of its own URL |
| SiteProcessor.VisitEachMeasured | site_processor.go:114-115 | every result recorded for a list of URLs is the measurement of its own URL |
| SiteProcessor.ProcessSitesMeasured | site_processor.go:114-115 | every result carries its URL's duration, and has size `-1` exactly when that URL's download failed, otherwise a size between 0 and the byte count |
| SiteProcessor.ProcessSitesTops | site_processor.go:123-139 | the results at level 1 are the input URLs in order; every other result is a link found, by an earlier second download, on a page one level up |
| SiteProcessor.VisitUrlRooted | site_processor.go:123-133 | every visit below a page's own level is to a link extracted from the second download of an earlier page one level up |
| SiteProcessor.VisitEachRooted | site_processor.go:131-139 | the same holds for the walks of a whole list of URLs |
| SiteProcessor.VisitUrlPreOrder | site_processor.go:107-133 | the walk from a page is in depth-first pre-order: for every visit, the visits one level below it, up to the next visit at its own level or above, are exactly the links of that page's second download, in order; there are none at the depth limit or when that download fails; the record starts at the page's level and never goes down more than one level from one visit to the next |
| SiteProcessor.VisitEachPreOrder | site_processor.go:131-139 | the walks of a list of URLs, recorded one after the other, keep that pre-order for every visit, start at the list's level and skip no level on the way down |
| SiteProcessor.ProcessSitesPreOrder | site_processor.go:105-139 | every result of the whole run is followed at once by its subtree: the results one level below it, before the run returns to its level, are the links found on its page, in order; the record starts at level 1 and never goes down more than one level at a time |
| SiteProcessor.VisitUrlSteps | site_processor.go:107-133 | the walk from a page starts with the page at the current level, and each later visit lies at most one level below the one before it, since links are walked one level deeper |
| SiteProcessor.VisitEachSteps | site_processor.go:131-139 | the walks of a list of links, one after the other, start at the list's level and skip no level going down: each walk ends no higher than the level where the next one starts |
| SiteProcessor.StepsAppend | site_processor.go:131-133 | two records that each start at the same level and skip no level, the first never above that level, joined one after the other, still skip no level |
| SiteProcessor.PreOrderSlices | site_processor.go:123-133 | in a pre-order record, `Tops` of the slice from a visit to the next visit at its level or above, taken one level down, is that visit's links |
| Export.UnitLabel | site_processor.go:268-276 | the label is one word without spaces or newlines |
| Export.UnitLabelNames | site_processor.go:268-276 | the four labels are `bytes`, `KB`, `MB` and `characters` |
| Export.UnitLabelInjective | site_processor.go:268-276 | different units get different labels |
| Export.TxtLine | site_processor.go:279-283 | a TXT line starts with the URL and ` - `, and ends with a newline |
| Export.TxtLineRoundTrip | site_processor.go:279-283 | reading a TXT line back gives the result's size, the unit's label and the duration text; a failed download's line reads back as `-1` with its duration text |
| Export.TxtLineUnit | site_processor.go:268-283 | the label read back from a measured line names exactly the unit the line was written in |
| Export.TxtLineNewlines | site_processor.go:279-283 | a line holds exactly one newline when the URL and the duration text hold none |
| Export.TxtFileLines | site_processor.go:278-287 | the TXT export holds one newline-ended line per result |
| Export.TxtFile | site_processor.go:278-287 | the export holds at least one character per result |
| Export.TxtFileEnds | site_processor.go:278-287 | a non-empty export ends with a newline |
| Export.TxtFileSingle | site_processor.go:278-287 | the export of a single result is exactly that result's line |
| Export.TxtFileAppend | site_processor.go:278-287 | the export of two runs of results is the export of the first followed by that of the second, so lines come in result order |
| Export.CsvRecord | site_processor.go:205-209 | a record has three fields: the URL, the size, and the duration text |
| Export.CsvRows | site_processor.go:200-213 | the CSV export is the header `URL,Size,Duration` followed by one record per result |
| Export.CsvRoundTrip | site_processor.go:200-213 | reading the CSV records back gives every result's URL, size and duration text, in result order |
| Decimal.FormatInt | site_processor.go:282 | the `%d` rendering is non-empty, starts with `-` exactly for negative numbers, and otherwise starts with a digit |
| Decimal.FormatIntRoundTrip | site_processor.go:207 | the `%d` rendering of a size parses back to the same integer, the sentinel `-1` included |
| Decimal.FormatIntInjective | site_processor.go:207 | different sizes are written differently |
| Cli.ParseSizeFlag | main.go:25-37 | a recognised flag is, lower-cased, the name of the unit it selects |
| Cli.ParseSizeFlagIff | main.go:26-36 | a flag selects a unit exactly when, lower-cased, it equals that unit's name; every other flag is refused |
| Cli.FlagNameParses | main.go:26-34 | every unit can be selected |
| Cli.ParseSizeFlagExamples | main.go:14-36 | the default `bytes` selects bytes; `KB`, `Mb` and `CHARS` select their units; `kib` and the empty flag are refused |
| Cli.Validate | main.go:20-46 | an empty path is refused before anything else; a bad size flag is refused next; then an unreadable file, then a file without links, each with its own error; a success carries at least one link, each starting with `https://` |
| Cli.ValidateSuccess | main.go:20-46 | the program goes on exactly when a path is given, the flag names a unit, the file is read and a link is found; it then goes on with that unit and those links |
| Cli.NoSchemeStops | main.go:40-46 | a readable file without any `http://` or `https://` stops the program for want of links |

## Left out

- `FindAndReadFile` (link_processor.go:13-28) is file-system I/O. It becomes the `Reader` parameter.
- `DownloadContent` (site_processor.go:37-50) and the clock around it (site_processor.go:62-64) become the `fetch`, `clock` and `refetch` parameters.
  - These parameters are functions of the URL. A URL visited twice in one walk therefore sees the same outcome both times; the real program downloads it again.
  - The first and second downloads of one visit stay independent.
- The internals of `url.Parse`, `Hostname` and `URL.String` (percent-encoding, ports, IPv6 brackets, opaque URLs) are hidden behind the `Parser` parameter. `Render` covers only the `String()` form of a URL with a host.
- `Duration.String` / `%v` formatting is foreign. It becomes the `DurationText` parameter.
- Logging and console output are not modelled: `log.Printf` and `fmt.Printf` in the walk (site_processor.go:113, 118-121, 126) and `DisplayResults` (site_processor.go:224-242).
- File output is modelled only as the text and records written.
  - Left out: file creation, write and close errors, and the export-type switch (site_processor.go:141-173).
  - Left out: JSON export (site_processor.go:178-188) and `encoding/csv` quoting.
- The rest of `main` is left out: the output path, display and save (main.go:47-64).
  - It calls `ProcessSites(links, sizeUnit)` and uses a return value, but `ProcessSites` takes six parameters and returns nothing.
  - main.go:40 calls `ProcessFile`, which does not exist. `LinkProcessor.ProcessFile` models `ProcessfileT` (link_processor.go:64-72) in its place.
- `bufio.Scanner`'s 64 KiB token limit is not modelled. Longer lines silently end the scan, and the model assumes lines fit.
- Cli.ParseSizeFlag: lower-cases ASCII letters only. `strings.ToLower` also folds other Unicode letters, e.g. the Kelvin sign.
- Strings are sequences of characters, not UTF-8 bytes. Invalid UTF-8 is not modelled, and neither is the difference between the byte length and the character count of non-ASCII content.
- `Size` is an `int64` and durations are `int64` nanoseconds. The model uses unbounded integers, because a page length never comes near 2^63.

=== FILE: cli.dfy ===
/**
 * The checks `main` makes before measuring anything: a file path must be given, the `--size`
 * flag must name a unit, the file must be readable, and it must contain at least one link.
 */
module Cli {
  import opened Wrappers
  import opened Text
  import opened UrlRegex
  import opened LinkProcessor
  import opened SiteProcessor

  /** Why the program stops before measuring. */
  datatype CliError = MissingPath | InvalidSize(flag: string) | UnreadableFile | NoLinks

  /** What the program goes on with: the unit and the links found in the file. */
  datatype Settings = Settings(unit: SizeUnit, links: seq<string>)

  /** The value `--size` has when it is not given. */
  const DefaultSize: string := "bytes"

  /** The lower-case `--size` value that selects each unit. */
  function FlagName(unit: SizeUnit): string {
    match unit
    case Bytes => "bytes"
    case KB => "kb"
    case MB => "mb"
    case Chars => "chars"
  }

  /** The `--size` switch: the flag is lower-cased and compared with the four unit names. */
  function ParseSizeFlag(flag: string): (r: Option<SizeUnit>)
    ensures r.Some? ==> Lower(flag) == FlagName(r.value)
  {
    var f := Lower(flag);
    if f == "kb" then Some(KB)
    else if f == "mb" then Some(MB)
    else if f == "chars" then Some(Chars)
    else if f == "bytes" then Some(Bytes)
    else None
  }

  /** A flag selects a unit exactly when, lower-cased, it is that unit's name. */
  lemma ParseSizeFlagIff(flag: string, unit: SizeUnit)
    ensures ParseSizeFlag(flag) == Some(unit) <==> Lower(flag) == FlagName(unit)
  {
  }

  /** Every unit can be selected, by its name in any mix of cases. */
  lemma FlagNameParses(unit: SizeUnit)
    ensures ParseSizeFlag(FlagName(unit)) == Some(unit)
  {
    assert Lower(FlagName(unit)) == FlagName(unit);
  }

  /** The default selects bytes; case does not matter; other words are refused. */
  lemma ParseSizeFlagExamples()
    ensures ParseSizeFlag(DefaultSize) == Some(Bytes)
    ensures ParseSizeFlag("KB") == Some(KB)
    ensures ParseSizeFlag("Mb") == Some(MB)
    ensures ParseSizeFlag("CHARS") == Some(Chars)
    ensures ParseSizeFlag("kib") == None
    ensures ParseSizeFlag("") == None
  {
    FlagNameParses(Bytes);
    assert Lower("KB") == "kb";
    assert Lower("Mb") == "mb";
    assert Lower("CHARS") == "chars";
    assert Lower("kib") == "kib";
  }

  /**
   * The start of `main`: the path check, then the unit, then reading and extracting the links,
   * then the check that some link was found. Each failure stops the program.
   */
  function Validate(path: string, size: string, read: Reader, parse: Parser): (r: Result<Settings, CliError>)
    ensures path == "" ==> r == Failure(MissingPath)
    ensures path != "" && ParseSizeFlag(size).None? ==> r == Failure(InvalidSize(size))
    ensures path != "" && ParseSizeFlag(size).Some? && read(path).None? ==> r == Failure(UnreadableFile)
    ensures (path != "" && ParseSizeFlag(size).Some? && read(path).Some?
             && ExtractAndNormalizeLinks(read(path).value, parse) == []) ==> r == Failure(NoLinks)
    ensures r.Success? ==> |r.value.links| > 0 && forall k :: 0 <= k < |r.value.links| ==> HasPrefix(r.value.links[k], Https)
  {
    if path == "" then Failure(MissingPath)
    else
      match ParseSizeFlag(size)
      case None => Failure(InvalidSize(size))
      case Some(unit) =>
        match ProcessFile(path, read, parse)
        case None => Failure(UnreadableFile)
        case Some(links) => if links == [] then Failure(NoLinks) else Success(Settings(unit, links))
  }

  /**
   * The program goes on exactly when a path is given, the flag names a unit, the file is read
   * and at least one link is found in it; it then goes on with that unit and those links.
   */
  lemma ValidateSuccess(path: string, size: string, read: Reader, parse: Parser)
    ensures Validate(path, size, read, parse).Success? <==>
      path != "" && ParseSizeFlag(size).Some? && read(path).Some? &&
      ExtractAndNormalizeLinks(read(path).value, parse) != []
    ensures Validate(path, size, read, parse).Success? ==>
      Validate(path, size, read, parse).value ==
        Settings(ParseSizeFlag(size).value, ExtractAndNormalizeLinks(read(path).value, parse))
  {
  }

  /** A file without any `http://` or `https://` stops the program for want of links. */
  lemma NoSchemeStops(path: string, size: string, read: Reader, parse: Parser)
    requires path != "" && ParseSizeFlag(size).Some? && read(path).Some?
    requires forall p :: 0 <= p < |read(path).value| ==>
      !TextAt(read(path).value, p, Http) && !TextAt(read(path).value, p, Https)
    ensures Validate(path, size, read, parse) == Failure(NoLinks)
  {
    ExtractNoScheme(read(path).value, parse);
  }
}

=== FILE: decimal.dfy ===
/** Decimal rendering of integers as Go's `%d` verb writes them, and the parser that reads them back. */
module Decimal {
  import opened Wrappers

  predicate IsDigit(c: char) {
    '0' <= c <= '9'
  }

  predicate AllDigits(s: string) {
    forall i :: 0 <= i < |s| ==> IsDigit(s[i])
  }

  function DigitChar(d: nat): (c: char)
    requires d < 10
    ensures IsDigit(c)
  {
    ('0' as int + d) as char
  }

  function DigitValue(c: char): (d: nat)
    requires IsDigit(c)
    ensures d < 10
  {
    c as int - '0' as int
  }

  /** Digits of `n` in base ten, most significant first, without leading zeros. */
  function NatToDecimal(n: nat): (s: string)
    ensures |s| >= 1 && AllDigits(s)
    ensures s[0] == '0' ==> n == 0 && |s| == 1
    decreases n
  {
    if n < 10 then [DigitChar(n)] else NatToDecimal(n / 10) + [DigitChar(n % 10)]
  }

  /** `%d`: a minus sign for negative values, then the digits of the magnitude. */
  function FormatInt(n: int): (s: string)
    ensures |s| >= 1
    ensures s[0] == '-' <==> n < 0
    ensures s[0] == '-' || IsDigit(s[0])
  {
    if n < 0 then "-" + NatToDecimal(-n) else NatToDecimal(n)
  }

  /** Value of a string of digits, most significant first. */
  function DigitsValue(s: string): nat
    requires AllDigits(s)
    decreases |s|
  {
    if |s| == 0 then 0 else DigitsValue(s[..|s| - 1]) * 10 + DigitValue(s[|s| - 1])
  }

  /** Reads back a decimal integer: an optional minus sign and at least one digit. */
  function ParseInt(s: string): (r: Option<int>)
    ensures r.Some? ==> |s| >= 1
    ensures r.Some? && r.value < 0 ==> s[0] == '-'
  {
    if |s| >= 2 && s[0] == '-' && AllDigits(s[1..]) then Some(-(DigitsValue(s[1..]) as int))
    else if |s| >= 1 && AllDigits(s) then Some(DigitsValue(s))
    else None
  }

  lemma {:induction false} NatToDecimalValue(n: nat)
    ensures DigitsValue(NatToDecimal(n)) == n
    decreases n
  {
    if n >= 10 {
      var s := NatToDecimal(n);
      var p := NatToDecimal(n / 10);
      assert s == p + [DigitChar(n % 10)];
      assert s[..|s| - 1] == p;
      NatToDecimalValue(n / 10);
    }
  }

  lemma ParseDigits(s: string)
    requires |s| >= 1 && AllDigits(s)
    ensures ParseInt(s) == Some(DigitsValue(s))
  {
    assert s[0] != '-';
  }

  lemma ParseNegative(s: string)
    requires |s| >= 2 && s[0] == '-' && AllDigits(s[1..])
    ensures ParseInt(s) == Some(-(DigitsValue(s[1..]) as int))
  {
  }

  lemma RoundTripNegative(n: int)
    requires n < 0
    ensures ParseInt(FormatInt(n)) == Some(n)
  {
    var s := FormatInt(n);
    var m: nat := -n;
    assert s[1..] == NatToDecimal(m);
    NatToDecimalValue(m);
    ParseNegative(s);
  }

  lemma RoundTripNatural(n: nat)
    ensures ParseInt(FormatInt(n)) == Some(n)
  {
    NatToDecimalValue(n);
    ParseDigits(NatToDecimal(n));
  }

  /** Parsing what `FormatInt` wrote gives the integer back. */
  lemma FormatIntRoundTrip(n: int)
    ensures ParseInt(FormatInt(n)) == Some(n)
  {
    if n < 0 {
      RoundTripNegative(n);
    } else {
      RoundTripNatural(n);
    }
  }

  lemma FormatIntInjective(a: int, b: int)
    ensures FormatInt(a) == FormatInt(b) <==> a == b
  {
    if FormatInt(a) == FormatInt(b) {
      FormatIntRoundTrip(a);
      FormatIntRoundTrip(b);
    }
  }

  /** What `%d` writes is a minus sign or digits, so it never contains a space or a newline. */
  lemma FormatIntChars(n: int)
    ensures forall k :: 0 <= k < |FormatInt(n)| ==> FormatInt(n)[k] == '-' || IsDigit(FormatInt(n)[k])
  {
    if n < 0 {
      var s := FormatInt(n);
      forall k | 1 <= k < |s|
        ensures IsDigit(s[k])
      {
        assert s[k] == NatToDecimal(-n)[k - 1];
      }
    }
  }
}

=== FILE: export.dfy ===
/**
 * Writing results out: the unit label, one text line per result for the TXT export, and the
 * header and records of the CSV export, each with a reader that gets the values back.
 */
module Export {
  import opened Wrappers
  import opened Text
  import opened Decimal
  import opened SiteProcessor

  /** The word written after a size: `bytes`, `KB`, `MB` or `characters`. */
  function UnitLabel(unit: SizeUnit): (l: string)
    ensures |l| >= 2 && ' ' !in l && '\n' !in l
  {
    match unit
    case Bytes => "bytes"
    case KB => "KB"
    case MB => "MB"
    case Chars => "characters"
  }

  /** The four labels as the exporter writes them. */
  lemma UnitLabelNames()
    ensures UnitLabel(Bytes) == "bytes" && UnitLabel(KB) == "KB"
    ensures UnitLabel(MB) == "MB" && UnitLabel(Chars) == "characters"
  {
  }

  /** Different units get different labels, so the label tells the unit. */
  lemma UnitLabelInjective(a: SizeUnit, b: SizeUnit)
    ensures UnitLabel(a) == UnitLabel(b) <==> a == b
  {
  }

  /** Go's `%v` for a `time.Duration`, supplied from outside. */
  type DurationText = Duration -> string

  const Separator: string := " - "
  const ErrorText: string := "Error downloading content"

  /** What follows `<url> - ` on a TXT line: the size field or the error text, then the duration. */
  function TxtBody(r: ProcessResult, unit: SizeUnit, show: DurationText): string {
    if r.size == -1 then ErrorText + Separator + show(r.duration)
    else FormatInt(r.size) + " " + UnitLabel(unit) + Separator + show(r.duration)
  }

  /**
   * One line of the TXT export: `<url> - Error downloading content - <duration>` for a failed
   * download, `<url> - <size> <label> - <duration>` otherwise, ended by a newline.
   */
  function TxtLine(r: ProcessResult, unit: SizeUnit, show: DurationText): (line: string)
    ensures HasPrefix(line, r.url + Separator)
    ensures |line| > 0 && line[|line| - 1] == '\n'
  {
    var line := r.url + Separator + TxtBody(r, unit, show) + "\n";
    assert line[..|r.url + Separator|] == r.url + Separator;
    line
  }

  /** What a TXT line says: the size (`-1` for the error text), the unit label and the duration text. */
  datatype TxtFields = TxtFields(size: int, unitLabel: string, duration: string)

  /**
   * Reads what follows `<url> - ` on a TXT line, newline removed: the error text and the
   * duration, or a decimal size, a label up to the next space, and the duration.
   */
  function ReadTxtBody(body: string): Option<TxtFields> {
    if HasPrefix(body, ErrorText + Separator) then Some(TxtFields(-1, "", body[|ErrorText + Separator|..]))
    else
      var i := IndexOf(body, ' ');
      if i == |body| then None
      else
        var after := body[i + 1..];
        var j := IndexOf(after, ' ');
        if !HasPrefix(after[j..], Separator) then None
        else
          match ParseInt(body[..i])
          case None => None
          case Some(n) => Some(TxtFields(n, after[..j], after[j + |Separator|..]))
  }

  /** Reads a TXT line of the result for `url`: `None` when it is not of that shape. */
  function ReadTxtLine(line: string, url: string): Option<TxtFields> {
    var head := url + Separator;
    if !HasPrefix(line, head) || |line| == |head| || line[|line| - 1] != '\n' then None
    else ReadTxtBody(line[|head|..|line| - 1])
  }

  /** Between the URL with its separator and the final newline a TXT line holds its body. */
  lemma TxtLineRest(r: ProcessResult, unit: SizeUnit, show: DurationText)
    ensures ReadTxtLine(TxtLine(r, unit, show), r.url) == ReadTxtBody(TxtBody(r, unit, show))
  {
    var line := TxtLine(r, unit, show);
    assert line[|r.url + Separator|..|line| - 1] == TxtBody(r, unit, show);
  }

  /** A size field is `%d` output followed by a space, so it never reads as the error text. */
  lemma SizeFieldRoundTrip(n: int, tail: string)
    ensures !HasPrefix(FormatInt(n) + [' '] + tail, ErrorText + Separator)
    ensures var rest := FormatInt(n) + [' '] + tail;
      IndexOf(rest, ' ') == |FormatInt(n)| && ParseInt(rest[..IndexOf(rest, ' ')]) == Some(n)
  {
    var digits := FormatInt(n);
    var rest := digits + [' '] + tail;
    assert rest[0] == digits[0] != (ErrorText + Separator)[0];
    FormatIntChars(n);
    assert ' ' !in digits;
    IndexOfAfter(digits, ' ', tail);
    assert rest[..IndexOf(rest, ' ')] == digits;
    FormatIntRoundTrip(n);
  }

  /** A label without spaces is read up to the separator, and the duration text after it. */
  lemma LabelFieldRoundTrip(word: string, dur: string)
    requires ' ' !in word
    ensures var after := word + Separator + dur; var j := IndexOf(after, ' ');
      j == |word| && HasPrefix(after[j..], Separator) && after[..j] == word && after[j + |Separator|..] == dur
  {
    var after := word + Separator + dur;
    assert after == word + [' '] + ("- " + dur);
    IndexOfAfter(word, ' ', "- " + dur);
    assert after[|word|..] == Separator + dur;
    assert (Separator + dur)[..|Separator|] == Separator;
  }

  /** The body of a measured line reads back as its size, label and duration text. */
  lemma SizeBodyRoundTrip(n: int, word: string, dur: string)
    requires ' ' !in word
    ensures ReadTxtBody(FormatInt(n) + " " + word + Separator + dur) == Some(TxtFields(n, word, dur))
  {
    var body := FormatInt(n) + " " + word + Separator + dur;
    var tail := word + Separator + dur;
    assert body == FormatInt(n) + [' '] + tail;
    SizeFieldRoundTrip(n, tail);
    assert body[|FormatInt(n)| + 1..] == tail;
    LabelFieldRoundTrip(word, dur);
  }

  /** The body of a failed download's line reads back as `-1` and its duration text. */
  lemma ErrorBodyRoundTrip(dur: string)
    ensures ReadTxtBody(ErrorText + Separator + dur) == Some(TxtFields(-1, "", dur))
  {
    var body := ErrorText + Separator + dur;
    assert body[..|ErrorText + Separator|] == ErrorText + Separator;
    assert body[|ErrorText + Separator|..] == dur;
  }

  /**
   * Reading a TXT line back gives the result's size (`-1` for a failure), the unit's label
   * (none for a failure) and the duration text.
   */
  lemma TxtLineRoundTrip(r: ProcessResult, unit: SizeUnit, show: DurationText)
    ensures ReadTxtLine(TxtLine(r, unit, show), r.url) ==
      Some(TxtFields(r.size, if r.size == -1 then "" else UnitLabel(unit), show(r.duration)))
  {
    TxtLineRest(r, unit, show);
    if r.size == -1 {
      ErrorBodyRoundTrip(show(r.duration));
    } else {
      SizeBodyRoundTrip(r.size, UnitLabel(unit), show(r.duration));
    }
  }

  /** The label read back from a measured line names the unit it was written in, and no other. */
  lemma TxtLineUnit(r: ProcessResult, unit: SizeUnit, show: DurationText, u: SizeUnit)
    requires r.size != -1
    ensures ReadTxtLine(TxtLine(r, unit, show), r.url).Some?
    ensures ReadTxtLine(TxtLine(r, unit, show), r.url).value.unitLabel == UnitLabel(u) <==> u == unit
  {
    TxtLineRoundTrip(r, unit, show);
    UnitLabelInjective(u, unit);
  }

  /** The TXT export: the lines of all results, in result order. */
  function TxtFile(results: seq<ProcessResult>, unit: SizeUnit, show: DurationText): (text: string)
    ensures |text| >= |results|
    decreases |results|
  {
    if results == [] then [] else TxtLine(results[0], unit, show) + TxtFile(results[1..], unit, show)
  }

  /** A non-empty TXT export ends with a newline, as every line written does. */
  lemma {:induction false} TxtFileEnds(results: seq<ProcessResult>, unit: SizeUnit, show: DurationText)
    requires results != []
    ensures |TxtFile(results, unit, show)| > 0
    ensures TxtFile(results, unit, show)[|TxtFile(results, unit, show)| - 1] == '\n'
    decreases |results|
  {
    var x := TxtLine(results[0], unit, show);
    if |results| > 1 {
      TxtFileEnds(results[1..], unit, show);
    } else {
      assert TxtFile(results, unit, show) == x + [];
    }
  }

  /** The TXT export of one result is its line. */
  lemma TxtFileSingle(r: ProcessResult, unit: SizeUnit, show: DurationText)
    ensures TxtFile([r], unit, show) == TxtLine(r, unit, show)
  {
    assert [r][1..] == [];
  }

  /** The TXT export of two runs of results is the export of the first followed by that of the second. */
  lemma {:induction false} TxtFileAppend(a: seq<ProcessResult>, b: seq<ProcessResult>, unit: SizeUnit, show: DurationText)
    ensures TxtFile(a + b, unit, show) == TxtFile(a, unit, show) + TxtFile(b, unit, show)
    decreases |a|
  {
    if a == [] {
      assert a + b == b;
    } else {
      assert (a + b)[0] == a[0];
      assert (a + b)[1..] == a[1..] + b;
      TxtFileAppend(a[1..], b, unit, show);
      var x := TxtLine(a[0], unit, show);
      calc {
        TxtFile(a + b, unit, show);
        x + TxtFile(a[1..] + b, unit, show);
        x + (TxtFile(a[1..], unit, show) + TxtFile(b, unit, show));
        (x + TxtFile(a[1..], unit, show)) + TxtFile(b, unit, show);
        TxtFile(a, unit, show) + TxtFile(b, unit, show);
      }
    }
  }

  /** The URL and the duration text of a result hold no newline. */
  predicate SingleLine(r: ProcessResult, show: DurationText) {
    '\n' !in r.url && '\n' !in show(r.duration)
  }

  /** Neither the size field nor the error text holds a newline. */
  lemma TxtBodyNewlines(r: ProcessResult, unit: SizeUnit, show: DurationText)
    requires SingleLine(r, show)
    ensures '\n' !in TxtBody(r, unit, show)
  {
    if r.size != -1 {
      FormatIntChars(r.size);
      assert '\n' !in FormatInt(r.size);
    }
  }

  /** A TXT line holds exactly one newline, the one that ends it. */
  lemma TxtLineNewlines(r: ProcessResult, unit: SizeUnit, show: DurationText)
    requires SingleLine(r, show)
    ensures Count(TxtLine(r, unit, show), '\n') == 1
  {
    var body := r.url + Separator + TxtBody(r, unit, show);
    TxtBodyNewlines(r, unit, show);
    assert '\n' !in body;
    CountAppend(body, "\n", '\n');
  }

  /** The TXT export has one line per result when no URL or duration text spans lines. */
  lemma {:induction false} TxtFileLines(results: seq<ProcessResult>, unit: SizeUnit, show: DurationText)
    requires forall k :: 0 <= k < |results| ==> SingleLine(results[k], show)
    ensures Count(TxtFile(results, unit, show), '\n') == |results|
    decreases |results|
  {
    if results != [] {
      TxtLineNewlines(results[0], unit, show);
      TxtFileLines(results[1..], unit, show);
      CountAppend(TxtLine(results[0], unit, show), TxtFile(results[1..], unit, show), '\n');
    }
  }

  /** The first CSV record. */
  const CsvHeader: seq<string> := ["URL", "Size", "Duration"]

  /** One CSV record: the URL, the size as `%d` writes it, and the duration text. */
  function CsvRecord(r: ProcessResult, show: DurationText): (rec: seq<string>)
    ensures |rec| == 3 && rec[0] == r.url && rec[2] == show(r.duration)
  {
    [r.url, FormatInt(r.size), show(r.duration)]
  }

  function CsvRecords(results: seq<ProcessResult>, show: DurationText): (rows: seq<seq<string>>)
    ensures |rows| == |results|
    decreases |results|
  {
    if results == [] then [] else [CsvRecord(results[0], show)] + CsvRecords(results[1..], show)
  }

  /** The CSV export as records before quoting: the header, then one record per result. */
  function CsvRows(results: seq<ProcessResult>, show: DurationText): (rows: seq<seq<string>>)
    ensures |rows| == |results| + 1 && rows[0] == CsvHeader
  {
    [CsvHeader] + CsvRecords(results, show)
  }

  /** What one CSV record says: the URL, the size and the duration text. */
  datatype Row = Row(url: string, size: int, duration: string)

  /** What a result is written as. */
  function Summary(r: ProcessResult, show: DurationText): (row: Row)
    ensures row.url == r.url && row.size == r.size
  {
    Row(r.url, r.size, show(r.duration))
  }

  function Summaries(results: seq<ProcessResult>, show: DurationText): (rows: seq<Row>)
    ensures |rows| == |results|
    decreases |results|
  {
    if results == [] then [] else [Summary(results[0], show)] + Summaries(results[1..], show)
  }

  /** Reads records of three fields whose middle field is a decimal integer. */
  function ReadRecords(rows: seq<seq<string>>): (r: Option<seq<Row>>)
    ensures r.Some? ==> |r.value| == |rows|
    decreases |rows|
  {
    if rows == [] then Some([])
    else if |rows[0]| != 3 then None
    else
      match ParseInt(rows[0][1])
      case None => None
      case Some(n) =>
        match ReadRecords(rows[1..])
        case None => None
        case Some(rest) => Some([Row(rows[0][0], n, rows[0][2])] + rest)
  }

  /** Reads a whole CSV export: the header, then the records. */
  function ReadCsv(rows: seq<seq<string>>): (r: Option<seq<Row>>)
    ensures r.Some? ==> |rows| >= 1 && rows[0] == CsvHeader && |r.value| == |rows| - 1
  {
    if |rows| >= 1 && rows[0] == CsvHeader then ReadRecords(rows[1..]) else None
  }

  lemma {:induction false} CsvRecordsRoundTrip(results: seq<ProcessResult>, show: DurationText)
    ensures ReadRecords(CsvRecords(results, show)) == Some(Summaries(results, show))
    decreases |results|
  {
    if results != [] {
      var rows := CsvRecords(results, show);
      FormatIntRoundTrip(results[0].size);
      CsvRecordsRoundTrip(results[1..], show);
      assert rows[1..] == CsvRecords(results[1..], show);
    }
  }

  /** Reading the CSV export back gives every result's URL, size and duration text, in order. */
  lemma CsvRoundTrip(results: seq<ProcessResult>, show: DurationText)
    ensures ReadCsv(CsvRows(results, show)) == Some(Summaries(results, show))
  {
    CsvRecordsRoundTrip(results, show);
    assert CsvRows(results, show)[1..] == CsvRecords(results, show);
  }
}

=== FILE: link_processor.dfy ===
/**
 * Link extraction from a text file: the text is cut into lines as `bufio.ScanLines` does, each
 * line is scanned for the link pattern, and every match is normalised to an `https` URL;
 * matches that do not normalise are dropped.
 */
module LinkProcessor {
  import opened Wrappers
  import opened Text
  import opened UrlRegex

  /**
   * What `url.Parse` yields, as far as normalisation needs it: the scheme, the authority as
   * `String()` writes it (user information and host), the host name alone, and everything
   * `String()` writes after the authority (path, query and fragment).
   */
  datatype Url = Url(scheme: string, authority: string, hostname: string, tail: string)

  /** `URL.String()` for a URL that has a host: `scheme://authority` and then the rest. */
  function Render(u: Url): (r: string)
    ensures HasPrefix(r, u.scheme)
  {
    u.scheme + "://" + u.authority + u.tail
  }

  /** The URL parser, supplied from outside: `None` stands for a parse error. */
  type Parser = string -> Option<Url>

  /** The word with `https://` put in front unless it already starts with a scheme. */
  function WithScheme(word: string): (w: string)
    ensures HasPrefix(w, Http) || HasPrefix(w, Https)
    ensures HasPrefix(word, Http) || HasPrefix(word, Https) ==> w == word
    ensures !HasPrefix(word, Http) && !HasPrefix(word, Https) ==> w == Https + word
  {
    if !HasPrefix(word, Http) && !HasPrefix(word, Https) then
      assert (Https + word)[..|Https|] == Https;
      Https + word
    else word
  }

  /** Adding a scheme a second time changes nothing. */
  lemma WithSchemeIdempotent(word: string)
    ensures WithScheme(WithScheme(word)) == WithScheme(word)
  {
  }

  /** A match of the link pattern already has a scheme, so nothing is put in front of it. */
  lemma CandidateKeepsScheme(c: string)
    requires IsCandidate(c)
    ensures WithScheme(c) == c
  {
  }

  /**
   * `normalizeLink`: the empty string when the schemed word does not parse or has no host name,
   * otherwise the parsed URL written back with its scheme set to `https`.
   */
  function NormalizeLink(word: string, parse: Parser): (r: string)
    ensures r != "" ==> HasPrefix(r, Https)
    ensures r == "" <==> parse(WithScheme(word)).None? || parse(WithScheme(word)).value.hostname == ""
  {
    match parse(WithScheme(word))
    case None => ""
    case Some(u) =>
      if u.hostname == "" then "" else
        var r := Render(u.(scheme := "https"));
        assert r[..|Https|] == Https;
        r
  }

  /** An `http` link that the parser reads faithfully comes back with only its scheme changed. */
  lemma NormalizeUpgradesHttp(word: string, parse: Parser)
    requires HasPrefix(word, Http)
    requires parse(word).Some? && parse(word).value.hostname != ""
    requires parse(word).value.scheme == "http" && Render(parse(word).value) == word
    ensures NormalizeLink(word, parse) == Https + word[|Http|..]
  {
    var u := parse(word).value;
    var rest := u.authority + u.tail;
    assert WithScheme(word) == word;
    assert word == Http + rest;
    assert word[|Http|..] == rest;
    assert Render(u.(scheme := "https")) == Https + rest;
  }

  /** An `https` link that the parser reads faithfully comes back unchanged. */
  lemma NormalizeKeepsHttps(word: string, parse: Parser)
    requires HasPrefix(word, Https)
    requires parse(word).Some? && parse(word).value.hostname != ""
    requires parse(word).value.scheme == "https" && Render(parse(word).value) == word
    ensures NormalizeLink(word, parse) == word
  {
  }

  /** The inner loop of `ExtractAndNormalizeLinks`: normalise each match, keep the non-empty ones. */
  function NormalizeAll(cands: seq<string>, parse: Parser): (r: seq<string>)
    ensures |r| <= |cands|
    ensures forall k :: 0 <= k < |r| ==> r[k] != "" && HasPrefix(r[k], Https)
    decreases |cands|
  {
    if cands == [] then [] else Kept(cands[0], parse) + NormalizeAll(cands[1..], parse)
  }

  /** What the first candidate contributes. */
  function Kept(c: string, parse: Parser): (r: seq<string>)
    ensures |r| <= 1
  {
    var l := NormalizeLink(c, parse);
    if l == "" then [] else [l]
  }

  lemma NormalizeAllCons(a: seq<string>, parse: Parser)
    requires a != []
    ensures NormalizeAll(a, parse) == Kept(a[0], parse) + NormalizeAll(a[1..], parse)
  {
  }

  lemma {:induction false} NormalizeAllAppend(a: seq<string>, b: seq<string>, parse: Parser)
    ensures NormalizeAll(a + b, parse) == NormalizeAll(a, parse) + NormalizeAll(b, parse)
    decreases |a|
  {
    if a == [] {
      assert a + b == b;
    } else {
      var ab := a + b;
      assert ab[0] == a[0];
      assert ab[1..] == a[1..] + b;
      NormalizeAllAppend(a[1..], b, parse);
      calc {
        NormalizeAll(ab, parse);
        == { NormalizeAllCons(ab, parse); }
        Kept(a[0], parse) + NormalizeAll(a[1..] + b, parse);
        == Kept(a[0], parse) + (NormalizeAll(a[1..], parse) + NormalizeAll(b, parse));
        == (Kept(a[0], parse) + NormalizeAll(a[1..], parse)) + NormalizeAll(b, parse);
        == { NormalizeAllCons(a, parse); }
        NormalizeAll(a, parse) + NormalizeAll(b, parse);
      }
    }
  }

  /** A link is kept exactly when it is the non-empty normal form of some candidate. */
  lemma {:induction false} NormalizeAllMembers(cands: seq<string>, parse: Parser, link: string)
    ensures link in NormalizeAll(cands, parse) <==>
      link != "" && exists k :: 0 <= k < |cands| && NormalizeLink(cands[k], parse) == link
    decreases |cands|
  {
    if cands != [] {
      NormalizeAllMembers(cands[1..], parse, link);
      if exists k :: 0 <= k < |cands[1..]| && NormalizeLink(cands[1..][k], parse) == link {
        var k :| 0 <= k < |cands[1..]| && NormalizeLink(cands[1..][k], parse) == link;
        assert NormalizeLink(cands[k + 1], parse) == link;
      }
      if link != "" && exists k :: 0 <= k < |cands| && NormalizeLink(cands[k], parse) == link {
        var k :| 0 <= k < |cands| && NormalizeLink(cands[k], parse) == link;
        if k > 0 {
          assert NormalizeLink(cands[1..][k - 1], parse) == link;
        }
      }
    }
  }

  /** `dropCR`: one trailing carriage return is removed. */
  function DropCR(s: string): (r: string)
    ensures r == s || (|s| > 0 && s[|s| - 1] == '\r' && r == s[..|s| - 1])
  {
    if |s| > 0 && s[|s| - 1] == '\r' then s[..|s| - 1] else s
  }

  /**
   * The tokens of `bufio.ScanLines`: the text up to each newline with a carriage return before
   * it dropped, then the unterminated rest when it is not empty.
   */
  function Lines(s: string): (r: seq<string>)
    ensures forall k :: 0 <= k < |r| ==> '\n' !in r[k]
    decreases |s|
  {
    if s == [] then []
    else
      var i := IndexOf(s, '\n');
      if i == |s| then [DropCR(s)] else [DropCR(s[..i])] + Lines(s[i + 1..])
  }

  /** The newline that ends the first line is the first newline counted. */
  lemma {:induction false} CountFirstLine(s: string, i: nat)
    requires i < |s| && i == IndexOf(s, '\n')
    ensures Count(s, '\n') == 1 + Count(s[i + 1..], '\n')
    decreases i
  {
    if i > 0 {
      CountFirstLine(s[1..], i - 1);
      assert s[1..][i..] == s[i + 1..];
    }
  }

  /** A line that ends in a newline is one token, and the tokens of the rest follow it. */
  lemma LinesFirst(s: string, i: nat)
    requires i < |s| && i == IndexOf(s, '\n')
    ensures |Lines(s)| == 1 + |Lines(s[i + 1..])|
  {
    assert s != [];
    var rest := Lines(s[i + 1..]);
    assert Lines(s) == [DropCR(s[..i])] + rest;
  }

  /** One token per newline, plus one for a last line without a newline. */
  lemma {:induction false} LinesCount(s: string)
    ensures |Lines(s)| == Count(s, '\n') + (if |s| > 0 && s[|s| - 1] != '\n' then 1 else 0)
    decreases |s|
  {
    if s != [] {
      var i := IndexOf(s, '\n');
      if i == |s| {
        assert '\n' !in s;
      } else {
        var rest := s[i + 1..];
        LinesCount(rest);
        LinesFirst(s, i);
        CountFirstLine(s, i);
        if |rest| > 0 {
          assert s[|s| - 1] == rest[|rest| - 1];
        }
      }
    }
  }

  /** The links of a sequence of lines, line by line. */
  function LinksOfLines(lines: seq<string>, parse: Parser): (r: seq<string>)
    ensures forall k :: 0 <= k < |r| ==> r[k] != "" && HasPrefix(r[k], Https)
    decreases |lines|
  {
    if lines == [] then [] else NormalizeAll(FindAll(lines[0]), parse) + LinksOfLines(lines[1..], parse)
  }

  /** `ExtractAndNormalizeLinks`: every link of every line, in order, already normalised. */
  function ExtractAndNormalizeLinks(content: string, parse: Parser): (r: seq<string>)
    ensures forall k :: 0 <= k < |r| ==> r[k] != "" && HasPrefix(r[k], Https)
  {
    LinksOfLines(Lines(content), parse)
  }

  /** A trailing carriage return never changes the matches of a line. */
  lemma FindAllDropCR(s: string)
    ensures FindAll(DropCR(s)) == FindAll(s)
  {
    if |s| > 0 && s[|s| - 1] == '\r' {
      FindAllDropLast(s);
    }
  }

  /**
   * Cutting the text into lines changes nothing: newlines and carriage returns cannot occur in
   * a match, so the links are those of the whole text scanned at once.
   */
  lemma {:induction false} ExtractScansWholeText(content: string, parse: Parser)
    ensures ExtractAndNormalizeLinks(content, parse) == NormalizeAll(FindAll(content), parse)
    decreases |content|
  {
    var s := content;
    if s == [] {
      assert SpansFrom(s, |s|) == [];
    } else {
      var i := IndexOf(s, '\n');
      if i == |s| {
        FindAllDropCR(s);
        var lines := Lines(s);
        assert lines == [DropCR(s)];
        assert lines[1..] == [];
        assert LinksOfLines(lines, parse) == NormalizeAll(FindAll(DropCR(s)), parse) + [];
      } else {
        var rest := s[i + 1..];
        ExtractScansWholeText(rest, parse);
        FindAllDropCR(s[..i]);
        FindAllSplit(s, i);
        NormalizeAllAppend(FindAll(s[..i]), FindAll(rest), parse);
        assert Lines(s) == [DropCR(s[..i])] + Lines(rest);
        assert Lines(s)[1..] == Lines(rest);
      }
    }
  }

  /** A link is extracted exactly when it is the non-empty normal form of a match in the text. */
  lemma ExtractMembers(content: string, parse: Parser, link: string)
    ensures link in ExtractAndNormalizeLinks(content, parse) <==>
      link != "" && exists c :: c in FindAll(content) && NormalizeLink(c, parse) == link
  {
    ExtractScansWholeText(content, parse);
    NormalizeAllMembers(FindAll(content), parse, link);
  }

  /** Text in which no `http://` or `https://` occurs yields no links. */
  lemma ExtractNoScheme(content: string, parse: Parser)
    requires forall p :: 0 <= p < |content| ==> !TextAt(content, p, Http) && !TextAt(content, p, Https)
    ensures ExtractAndNormalizeLinks(content, parse) == []
  {
    ExtractScansWholeText(content, parse);
    NoSchemeNoMatch(content);
  }

  /** The file reader, supplied from outside: `None` stands for a read error. */
  type Reader = string -> Option<string>

  /** `ProcessfileT`: read the file, then extract its links; a read error is passed on. */
  function ProcessFile(path: string, read: Reader, parse: Parser): (r: Option<seq<string>>)
    ensures r.None? <==> read(path).None?
    ensures r.Some? ==> forall k :: 0 <= k < |r.value| ==> HasPrefix(r.value[k], Https)
  {
    match read(path)
    case None => None
    case Some(content) => Some(ExtractAndNormalizeLinks(content, parse))
  }
}

=== FILE: site_processor.dfy ===
/**
 * Measuring pages: the size of one download in the chosen unit, with `-1` standing for a
 * failed download, and the depth-bounded walk that measures a list of pages and, while depth
 * remains, the links found on each of them.
 */
module SiteProcessor {
  import opened Wrappers
  import opened Text
  import opened UrlRegex
  import opened LinkProcessor

  /** The unit sizes are reported in. */
  datatype SizeUnit = Bytes | KB | MB | Chars

  /** Go's `time.Duration`: a count of nanoseconds. */
  type Duration = int

  /** The measurement of one page; `size` is `-1` when the download failed. */
  datatype ProcessResult = ProcessResult(url: string, size: int, duration: Duration)

  const Kibi: nat := 1024
  const Mebi: nat := 1024 * 1024

  /** The byte count of a download in `unit`; `Chars` reports the byte count as it is. */
  function ScaleSize(len: nat, unit: SizeUnit): (s: nat)
    ensures s <= len
    ensures unit == KB ==> s * Kibi <= len < (s + 1) * Kibi
    ensures unit == MB ==> s * Mebi <= len < (s + 1) * Mebi
    ensures unit == Bytes || unit == Chars ==> s == len
  {
    match unit
    case KB => len / Kibi
    case MB => len / Mebi
    case _ => len
  }

  /** Sizes of some downloads in each unit. */
  lemma ScaleSizeExamples()
    ensures ScaleSize(2048, KB) == 2
    ensures ScaleSize(500 * Kibi, MB) == 0
    ensures ScaleSize(3 * Mebi - 1, MB) == 2
    ensures ScaleSize(1023, KB) == 0
    ensures ScaleSize(5000, Chars) == 5000
  {
  }

  /**
   * `ProcessSite`: the URL, the size of its download in `unit`, and the time taken. The
   * download is given as its byte count, `None` when it failed; the duration is the time
   * measured around it.
   */
  function ProcessSite(url: string, unit: SizeUnit, download: Option<nat>, duration: Duration): (r: ProcessResult)
    ensures r.url == url && r.duration == duration
    ensures download.None? <==> r.size == -1
    ensures download.Some? ==> 0 <= r.size <= download.value
  {
    match download
    case None => ProcessResult(url, -1, duration)
    case Some(len) => ProcessResult(url, ScaleSize(len, unit), duration)
  }

  /** A successful measurement never looks like a failed one, whatever its size and unit. */
  lemma SentinelIsDistinct(url: string, unit: SizeUnit, len: nat, d1: Duration, d2: Duration)
    ensures ProcessSite(url, unit, Some(len), d1).size != ProcessSite(url, unit, None, d2).size
    ensures ProcessSite(url, unit, Some(len), d1).size == ScaleSize(len, unit)
  {
  }

  /**
   * Everything the walk learns from outside, by URL: the byte count of the measuring download,
   * the time it took, the text of the second download that is searched for links, and the URL
   * parser used on the links found there.
   */
  datatype Oracles = Oracles(
    fetch: string -> Option<nat>,
    clock: string -> Duration,
    refetch: string -> Option<string>,
    parse: Parser)

  /** One recorded measurement together with the depth at which it was made. */
  datatype Visit = Visit(depth: int, result: ProcessResult)

  /** The measurement `ProcessSite` makes of `url`. */
  function Measure(o: Oracles, unit: SizeUnit, url: string): (r: ProcessResult)
    ensures r.url == url
  {
    ProcessSite(url, unit, o.fetch(url), o.clock(url))
  }

  /** Levels still to go from `cur` down to `depth`. */
  function Budget(cur: int, depth: int): nat {
    if cur > depth then 0 else depth - cur + 1
  }

  /**
   * `processURL(url, cur)`: nothing beyond `depth`; otherwise the page's own measurement and,
   * while `cur < depth` and the second download succeeds, the walk of every link on the page
   * one level deeper, in the order the links appear.
   */
  function VisitUrl(o: Oracles, unit: SizeUnit, depth: int, url: string, cur: int): (r: seq<Visit>)
    ensures r == [] <==> cur > depth
    ensures r != [] ==> r[0] == Visit(cur, Measure(o, unit, url))
    ensures forall k :: 0 <= k < |r| ==> cur <= r[k].depth <= depth
    decreases Budget(cur, depth), 0, 0
  {
    if cur > depth then []
    else
      var own := [Visit(cur, Measure(o, unit, url))];
      if cur < depth then
        match o.refetch(url)
        case None => own
        case Some(text) => own + VisitEach(o, unit, depth, ExtractAndNormalizeLinks(text, o.parse), cur + 1)
      else own
  }

  /** The `for` loop over `urls` at level `cur`: each URL's walk, one after the other. */
  function VisitEach(o: Oracles, unit: SizeUnit, depth: int, urls: seq<string>, cur: int): (r: seq<Visit>)
    ensures cur > depth ==> r == []
    ensures cur <= depth ==> |r| >= |urls|
    ensures forall k :: 0 <= k < |r| ==> cur <= r[k].depth <= depth
    decreases Budget(cur, depth), 1, |urls|
  {
    if urls == [] then [] else VisitUrl(o, unit, depth, urls[0], cur) + VisitEach(o, unit, depth, urls[1..], cur)
  }

  /** `ProcessSites`: the results of walking `urls` from level 1, in the order they were recorded. */
  function ProcessSites(o: Oracles, unit: SizeUnit, depth: int, urls: seq<string>): (r: seq<ProcessResult>)
    ensures depth < 1 ==> r == []
    ensures depth >= 1 ==> |r| >= |urls|
  {
    var vs := VisitEach(o, unit, depth, urls, 1);
    seq(|vs|, k requires 0 <= k < |vs| => vs[k].result)
  }

  /** The URLs of the visits made at level `d`, in order. */
  function Tops(vs: seq<Visit>, d: int): seq<string>
    decreases |vs|
  {
    if vs == [] then []
    else (if vs[0].depth == d then [vs[0].result.url] else []) + Tops(vs[1..], d)
  }

  lemma {:induction false} TopsAppend(a: seq<Visit>, b: seq<Visit>, d: int)
    ensures Tops(a + b, d) == Tops(a, d) + Tops(b, d)
    decreases |a|
  {
    if a == [] {
      assert a + b == b;
    } else {
      assert (a + b)[0] == a[0];
      assert (a + b)[1..] == a[1..] + b;
      TopsAppend(a[1..], b, d);
    }
  }

  /** No visit below level `d` counts as a visit at level `d`. */
  lemma {:induction false} TopsDeeper(vs: seq<Visit>, d: int)
    requires forall k :: 0 <= k < |vs| ==> vs[k].depth > d
    ensures Tops(vs, d) == []
    decreases |vs|
  {
    if vs != [] {
      TopsDeeper(vs[1..], d);
    }
  }

  /** The walk of a page within depth: its own visit, then only deeper ones. */
  lemma VisitUrlShape(o: Oracles, unit: SizeUnit, depth: int, url: string, cur: int)
    requires cur <= depth
    ensures forall k :: 1 <= k < |VisitUrl(o, unit, depth, url, cur)| ==> VisitUrl(o, unit, depth, url, cur)[k].depth > cur
  {
  }

  /**
   * The visits made at the starting level are exactly the given URLs, in the given order: each
   * URL is visited once at that level, and everything else the walk records lies deeper.
   */
  lemma {:induction false} VisitEachTops(o: Oracles, unit: SizeUnit, depth: int, urls: seq<string>, cur: int)
    requires cur <= depth
    ensures Tops(VisitEach(o, unit, depth, urls, cur), cur) == urls
    decreases |urls|
  {
    if urls != [] {
      var first := VisitUrl(o, unit, depth, urls[0], cur);
      VisitEachTops(o, unit, depth, urls[1..], cur);
      TopsAppend(first, VisitEach(o, unit, depth, urls[1..], cur), cur);
      VisitUrlShape(o, unit, depth, urls[0], cur);
      TopsDeeper(first[1..], cur);
      assert first == [first[0]] + first[1..];
      TopsAppend([first[0]], first[1..], cur);
    }
  }

  /** The walk of a list is the walk of its first part followed by the walk of the rest. */
  lemma {:induction false} VisitEachAppend(o: Oracles, unit: SizeUnit, depth: int, a: seq<string>, b: seq<string>, cur: int)
    ensures VisitEach(o, unit, depth, a + b, cur) == VisitEach(o, unit, depth, a, cur) + VisitEach(o, unit, depth, b, cur)
    decreases |a|
  {
    if a == [] {
      assert a + b == b;
    } else {
      assert (a + b)[0] == a[0];
      assert (a + b)[1..] == a[1..] + b;
      VisitEachAppend(o, unit, depth, a[1..], b, cur);
    }
  }

  /** At the last level every URL is measured once and no link is followed. */
  lemma {:induction false} LastLevel(o: Oracles, unit: SizeUnit, depth: int, urls: seq<string>)
    ensures |VisitEach(o, unit, depth, urls, depth)| == |urls|
    ensures forall i :: 0 <= i < |urls| ==>
      VisitEach(o, unit, depth, urls, depth)[i] == Visit(depth, Measure(o, unit, urls[i]))
    decreases |urls|
  {
    if urls != [] {
      LastLevel(o, unit, depth, urls[1..]);
      var r := VisitEach(o, unit, depth, urls, depth);
      assert VisitUrl(o, unit, depth, urls[0], depth) == [Visit(depth, Measure(o, unit, urls[0]))];
      forall i | 1 <= i < |urls|
        ensures r[i] == Visit(depth, Measure(o, unit, urls[i]))
      {
        assert r[i] == VisitEach(o, unit, depth, urls[1..], depth)[i - 1];
        assert urls[1..][i - 1] == urls[i];
      }
    }
  }

  /** With depth 1 there is one result per URL, in input order, each the page's own measurement. */
  lemma DepthOne(o: Oracles, unit: SizeUnit, urls: seq<string>)
    ensures |ProcessSites(o, unit, 1, urls)| == |urls|
    ensures forall i :: 0 <= i < |urls| ==>
      ProcessSites(o, unit, 1, urls)[i] == ProcessSite(urls[i], unit, o.fetch(urls[i]), o.clock(urls[i]))
    ensures forall i :: 0 <= i < |urls| ==> ProcessSites(o, unit, 1, urls)[i].url == urls[i]
  {
    LastLevel(o, unit, 1, urls);
  }

  /** A page whose second download fails is measured, and none of its links are followed. */
  lemma RefetchFailure(o: Oracles, unit: SizeUnit, depth: int, url: string, cur: int)
    requires cur <= depth && o.refetch(url).None?
    ensures VisitUrl(o, unit, depth, url, cur) == [Visit(cur, Measure(o, unit, url))]
  {
  }

  /**
   * Pre-order: after a page's own visit come the visits of the links found on it, one level
   * deeper and in the order they were found.
   */
  lemma NestedInLinkOrder(o: Oracles, unit: SizeUnit, depth: int, url: string, cur: int, text: string)
    requires cur < depth && o.refetch(url) == Some(text)
    ensures Tops(VisitUrl(o, unit, depth, url, cur)[1..], cur + 1) == ExtractAndNormalizeLinks(text, o.parse)
  {
    var links := ExtractAndNormalizeLinks(text, o.parse);
    var r := VisitUrl(o, unit, depth, url, cur);
    assert r[1..] == VisitEach(o, unit, depth, links, cur + 1);
    VisitEachTops(o, unit, depth, links, cur + 1);
  }

  /** Every recorded result is the measurement of its own URL: the sentinel, or the scaled size. */
  predicate Measured(o: Oracles, unit: SizeUnit, r: ProcessResult) {
    r == Measure(o, unit, r.url)
  }

  /** Every visit in `vs` records the measurement of its own URL. */
  predicate AllMeasured(o: Oracles, unit: SizeUnit, vs: seq<Visit>) {
    forall k :: 0 <= k < |vs| ==> Measured(o, unit, vs[k].result)
  }

  lemma MeasuredAppend(o: Oracles, unit: SizeUnit, a: seq<Visit>, b: seq<Visit>)
    requires AllMeasured(o, unit, a) && AllMeasured(o, unit, b)
    ensures AllMeasured(o, unit, a + b)
  {
    var r := a + b;
    forall k | 0 <= k < |r|
      ensures Measured(o, unit, r[k].result)
    {
      if k >= |a| {
        assert r[k] == b[k - |a|];
      }
    }
  }

  lemma {:induction false} VisitUrlMeasured(o: Oracles, unit: SizeUnit, depth: int, url: string, cur: int)
    ensures AllMeasured(o, unit, VisitUrl(o, unit, depth, url, cur))
    decreases Budget(cur, depth), 0, 0
  {
    if cur <= depth {
      var own := [Visit(cur, Measure(o, unit, url))];
      assert AllMeasured(o, unit, own);
      if cur < depth && o.refetch(url).Some? {
        var links := ExtractAndNormalizeLinks(o.refetch(url).value, o.parse);
        VisitEachMeasured(o, unit, depth, links, cur + 1);
        MeasuredAppend(o, unit, own, VisitEach(o, unit, depth, links, cur + 1));
      }
    }
  }

  lemma {:induction false} VisitEachMeasured(o: Oracles, unit: SizeUnit, depth: int, urls: seq<string>, cur: int)
    ensures AllMeasured(o, unit, VisitEach(o, unit, depth, urls, cur))
    decreases Budget(cur, depth), 1, |urls|
  {
    if urls != [] {
      VisitUrlMeasured(o, unit, depth, urls[0], cur);
      VisitEachMeasured(o, unit, depth, urls[1..], cur);
      MeasuredAppend(o, unit, VisitUrl(o, unit, depth, urls[0], cur), VisitEach(o, unit, depth, urls[1..], cur));
    }
  }

  /**
   * Every result `ProcessSites` records is the measurement of its URL: size `-1` exactly when
   * the download failed, otherwise a size between 0 and the byte count.
   */
  lemma ProcessSitesMeasured(o: Oracles, unit: SizeUnit, depth: int, urls: seq<string>, k: nat)
    requires k < |ProcessSites(o, unit, depth, urls)|
    ensures var r := ProcessSites(o, unit, depth, urls)[k];
      && r.duration == o.clock(r.url)
      && (o.fetch(r.url).None? <==> r.size == -1)
      && (o.fetch(r.url).Some? ==> 0 <= r.size <= o.fetch(r.url).value)
  {
    var vs := VisitEach(o, unit, depth, urls, 1);
    VisitEachMeasured(o, unit, depth, urls, 1);
    assert Measured(o, unit, vs[k].result);
  }

  /** A URL visited at level `d` is one of the URLs `Tops` lists for that level. */
  lemma {:induction false} TopsMember(vs: seq<Visit>, d: int, k: nat)
    requires k < |vs| && vs[k].depth == d
    ensures vs[k].result.url in Tops(vs, d)
    decreases |vs|
  {
    if k > 0 {
      TopsMember(vs[1..], d, k - 1);
      assert vs[1..][k - 1] == vs[k];
    }
  }

  /** Visit `c` follows a link found, by the second download, on the page of visit `p` one level up. */
  predicate Parent(o: Oracles, p: Visit, c: Visit) {
    && p.depth == c.depth - 1
    && o.refetch(p.result.url).Some?
    && c.result.url in ExtractAndNormalizeLinks(o.refetch(p.result.url).value, o.parse)
  }

  /** Visit `k` of `vs` has its parent among the visits made before it. */
  ghost predicate Followed(o: Oracles, vs: seq<Visit>, k: nat)
    requires k < |vs|
  {
    exists m {:trigger Parent(o, vs[m], vs[k])} :: 0 <= m < k && Parent(o, vs[m], vs[k])
  }

  /** Every visit of `vs` below level `cur` follows a link. */
  ghost predicate Rooted(o: Oracles, vs: seq<Visit>, cur: int) {
    forall k {:trigger Followed(o, vs, k)} :: 0 <= k < |vs| && vs[k].depth > cur ==> Followed(o, vs, k)
  }

  /** Putting visits in front keeps a followed link followed. */
  lemma FollowedShift(o: Oracles, pre: seq<Visit>, vs: seq<Visit>, k: nat)
    requires k < |vs| && Followed(o, vs, k)
    ensures Followed(o, pre + vs, |pre| + k)
  {
    var r := pre + vs;
    var m :| 0 <= m < k && Parent(o, vs[m], vs[k]);
    assert r[|pre| + m] == vs[m];
    assert r[|pre| + k] == vs[k];
  }

  /** Putting visits behind keeps a followed link followed. */
  lemma FollowedPrefix(o: Oracles, vs: seq<Visit>, post: seq<Visit>, k: nat)
    requires k < |vs| && Followed(o, vs, k)
    ensures Followed(o, vs + post, k)
  {
    var r := vs + post;
    var m :| 0 <= m < k && Parent(o, vs[m], vs[k]);
    assert r[m] == vs[m];
    assert r[k] == vs[k];
  }

  lemma RootedFront(o: Oracles, a: seq<Visit>, b: seq<Visit>, cur: int, k: nat)
    requires Rooted(o, a, cur) && k < |a| && a[k].depth > cur
    ensures Followed(o, a + b, k)
  {
    FollowedPrefix(o, a, b, k);
  }

  lemma RootedBack(o: Oracles, a: seq<Visit>, b: seq<Visit>, cur: int, k: nat)
    requires Rooted(o, b, cur) && k < |b| && b[k].depth > cur
    ensures Followed(o, a + b, |a| + k)
  {
    FollowedShift(o, a, b, k);
  }

  /** Two walks recorded one after the other: each deeper visit still follows a link. */
  lemma RootedAppend(o: Oracles, a: seq<Visit>, b: seq<Visit>, cur: int)
    requires Rooted(o, a, cur) && Rooted(o, b, cur)
    ensures Rooted(o, a + b, cur)
  {
    var r := a + b;
    forall k | 0 <= k < |r| && r[k].depth > cur
      ensures Followed(o, r, k)
    {
      if k < |a| {
        assert r[k] == a[k];
        RootedFront(o, a, b, cur, k);
      } else {
        assert r[k] == b[k - |a|];
        RootedBack(o, a, b, cur, k - |a|);
      }
    }
  }

  /** A visit one level below `p`, to a link found on `p`'s page, follows that link. */
  lemma UnderParent(o: Oracles, p: Visit, rest: seq<Visit>, j: nat)
    requires j < |rest| && Parent(o, p, rest[j])
    ensures Followed(o, [p] + rest, j + 1)
  {
    var r := [p] + rest;
    assert r[0] == p && r[j + 1] == rest[j];
  }

  /** The walk below a page whose links are followed: each deeper visit follows a link. */
  lemma {:induction false} VisitUrlRooted(o: Oracles, unit: SizeUnit, depth: int, url: string, cur: int)
    ensures Rooted(o, VisitUrl(o, unit, depth, url, cur), cur)
    decreases Budget(cur, depth), 0, 0
  {
    if cur < depth && o.refetch(url).Some? {
      var links := ExtractAndNormalizeLinks(o.refetch(url).value, o.parse);
      var p := Visit(cur, Measure(o, unit, url));
      var rest := VisitEach(o, unit, depth, links, cur + 1);
      var r := VisitUrl(o, unit, depth, url, cur);
      assert r == [p] + rest;
      VisitEachRooted(o, unit, depth, links, cur + 1);
      VisitEachTops(o, unit, depth, links, cur + 1);
      forall k | 0 <= k < |r| && r[k].depth > cur
        ensures Followed(o, r, k)
      {
        assert r[k] == rest[k - 1];
        if rest[k - 1].depth == cur + 1 {
          TopsMember(rest, cur + 1, k - 1);
          UnderParent(o, p, rest, k - 1);
        } else {
          FollowedShift(o, [p], rest, k - 1);
        }
      }
    }
  }

  lemma {:induction false} VisitEachRooted(o: Oracles, unit: SizeUnit, depth: int, urls: seq<string>, cur: int)
    ensures Rooted(o, VisitEach(o, unit, depth, urls, cur), cur)
    decreases Budget(cur, depth), 1, |urls|
  {
    if urls != [] {
      VisitUrlRooted(o, unit, depth, urls[0], cur);
      VisitEachRooted(o, unit, depth, urls[1..], cur);
      RootedAppend(o, VisitUrl(o, unit, depth, urls[0], cur), VisitEach(o, unit, depth, urls[1..], cur), cur);
    }
  }

  /**
   * The URLs measured at level 1 are the input URLs in order; every deeper result follows a
   * link found, by an earlier second download, on a page one level up.
   */
  lemma ProcessSitesTops(o: Oracles, unit: SizeUnit, depth: int, urls: seq<string>)
    requires depth >= 1
    ensures Tops(VisitEach(o, unit, depth, urls, 1), 1) == urls
    ensures Rooted(o, VisitEach(o, unit, depth, urls, 1), 1)
  {
    VisitEachTops(o, unit, depth, urls, 1);
    VisitEachRooted(o, unit, depth, urls, 1);
  }

  /** The first position from `j` on whose visit is at level `d` or above, or the end. */
  function LevelEnd(vs: seq<Visit>, d: int, j: nat): (e: nat)
    requires j <= |vs|
    ensures j <= e <= |vs|
    decreases |vs| - j
  {
    if j == |vs| || vs[j].depth <= d then j else LevelEnd(vs, d, j + 1)
  }

  /** Every visit between `j` and `LevelEnd` lies deeper than `d`; the one at `LevelEnd`, if any, does not. */
  lemma {:induction false} LevelEndStops(vs: seq<Visit>, d: int, j: nat)
    requires j <= |vs|
    ensures forall i :: j <= i < LevelEnd(vs, d, j) ==> vs[i].depth > d
    ensures LevelEnd(vs, d, j) < |vs| ==> vs[LevelEnd(vs, d, j)].depth <= d
    decreases |vs| - j
  {
    if j < |vs| && vs[j].depth > d {
      LevelEndStops(vs, d, j + 1);
    }
  }

  /** Conversely, a position with those two properties is the one `LevelEnd` finds. */
  lemma {:induction false} LevelEndUnique(vs: seq<Visit>, d: int, j: nat, e: nat)
    requires j <= e <= |vs|
    requires forall i :: j <= i < e ==> vs[i].depth > d
    requires e < |vs| ==> vs[e].depth <= d
    ensures LevelEnd(vs, d, j) == e
    decreases e - j
  {
    if j < e {
      LevelEndUnique(vs, d, j + 1, e);
    }
  }

  lemma LevelEndShift(pre: seq<Visit>, vs: seq<Visit>, d: int, j: nat)
    requires j <= |vs|
    ensures LevelEnd(pre + vs, d, |pre| + j) == |pre| + LevelEnd(vs, d, j)
  {
    var r := pre + vs;
    var e := LevelEnd(vs, d, j);
    LevelEndStops(vs, d, j);
    forall i | |pre| + j <= i < |pre| + e
      ensures r[i].depth > d
    {
      assert r[i] == vs[i - |pre|];
    }
    if |pre| + e < |r| {
      assert r[|pre| + e] == vs[e];
    }
    LevelEndUnique(r, d, |pre| + j, |pre| + e);
  }

  lemma LevelEndPrefix(a: seq<Visit>, b: seq<Visit>, d: int, j: nat)
    requires j <= |a|
    requires b != [] ==> b[0].depth <= d
    ensures LevelEnd(a + b, d, j) == LevelEnd(a, d, j)
  {
    var r := a + b;
    var e := LevelEnd(a, d, j);
    LevelEndStops(a, d, j);
    forall i | j <= i < e
      ensures r[i].depth > d
    {
      assert r[i] == a[i];
    }
    if e < |r| {
      if e < |a| {
        assert r[e] == a[e];
      } else {
        assert r[e] == b[0];
      }
    }
    LevelEndUnique(r, d, j, e);
  }

  /** The URLs of the visits at level `d` among positions `i` (included) to `e` (excluded). */
  function TopsIn(vs: seq<Visit>, d: int, i: nat, e: nat): seq<string>
    requires i <= e <= |vs|
    decreases e - i
  {
    if i == e then [] else (if vs[i].depth == d then [vs[i].result.url] else []) + TopsIn(vs, d, i + 1, e)
  }

  lemma {:induction false} TopsInShift(pre: seq<Visit>, vs: seq<Visit>, d: int, i: nat, e: nat)
    requires i <= e <= |vs|
    ensures TopsIn(pre + vs, d, |pre| + i, |pre| + e) == TopsIn(vs, d, i, e)
    decreases e - i
  {
    if i < e {
      assert (pre + vs)[|pre| + i] == vs[i];
      TopsInShift(pre, vs, d, i + 1, e);
    }
  }

  lemma {:induction false} TopsInPrefix(a: seq<Visit>, b: seq<Visit>, d: int, i: nat, e: nat)
    requires i <= e <= |a|
    ensures TopsIn(a + b, d, i, e) == TopsIn(a, d, i, e)
    decreases e - i
  {
    if i < e {
      assert (a + b)[i] == a[i];
      TopsInPrefix(a, b, d, i + 1, e);
    }
  }

  /** Over the whole record, `TopsIn` is `Tops`. */
  lemma {:induction false} TopsInAll(vs: seq<Visit>, d: int)
    ensures TopsIn(vs, d, 0, |vs|) == Tops(vs, d)
    decreases |vs|
  {
    if vs != [] {
      TopsInAll(vs[1..], d);
      TopsInShift([vs[0]], vs[1..], d, 0, |vs| - 1);
      assert [vs[0]] + vs[1..] == vs;
    }
  }

  /** `TopsIn` is `Tops` of the slice between the two positions. */
  lemma {:induction false} TopsInSlice(vs: seq<Visit>, d: int, i: nat, e: nat)
    requires i <= e <= |vs|
    ensures TopsIn(vs, d, i, e) == Tops(vs[i..e], d)
    decreases e - i
  {
    if i < e {
      TopsInSlice(vs, d, i + 1, e);
      assert vs[i..e][0] == vs[i];
      assert vs[i..e][1..] == vs[i + 1..e];
    }
  }

  /**
   * The links the walk follows from visit `v`: those of its page's second download, when `v`
   * lies above the depth limit and that download succeeded; none otherwise.
   */
  function Children(o: Oracles, depth: int, v: Visit): seq<string> {
    if v.depth < depth && o.refetch(v.result.url).Some? then
      ExtractAndNormalizeLinks(o.refetch(v.result.url).value, o.parse)
    else []
  }

  /**
   * The visits one level below visit `k` within its subtree: the visits recorded after `k` and
   * before the next one at `k`'s level or above.
   */
  function SubtreeLinks(vs: seq<Visit>, k: nat): seq<string>
    requires k < |vs|
  {
    TopsIn(vs, vs[k].depth + 1, k + 1, LevelEnd(vs, vs[k].depth, k + 1))
  }

  /** The same visits, as `Tops` of the slice of `vs` that is `k`'s subtree. */
  lemma SubtreeLinksSlice(vs: seq<Visit>, k: nat)
    requires k < |vs|
    ensures SubtreeLinks(vs, k) == Tops(vs[k + 1..LevelEnd(vs, vs[k].depth, k + 1)], vs[k].depth + 1)
  {
    TopsInSlice(vs, vs[k].depth + 1, k + 1, LevelEnd(vs, vs[k].depth, k + 1));
  }

  /** Visit `k`'s subtree holds, one level down and in order, exactly the links followed from it. */
  predicate SubtreeAt(o: Oracles, depth: int, vs: seq<Visit>, k: nat)
    requires k < |vs|
  {
    SubtreeLinks(vs, k) == Children(o, depth, vs[k])
  }

  /**
   * In `vs`, the visits one level below each visit, up to the next visit at its level or above,
   * are that visit's links. Together with `Steps`, which rules out a skipped level, this makes
   * `vs` a depth-first pre-order record: every visit is followed at once by its whole subtree.
   */
  predicate PreOrder(o: Oracles, depth: int, vs: seq<Visit>) {
    forall k {:trigger SubtreeAt(o, depth, vs, k)} :: 0 <= k < |vs| ==> SubtreeAt(o, depth, vs, k)
  }

  /** A pre-order record, stated with `Tops` over each visit's subtree slice. */
  lemma PreOrderSlices(o: Oracles, depth: int, vs: seq<Visit>)
    requires PreOrder(o, depth, vs)
    ensures forall k :: 0 <= k < |vs| ==>
      Tops(vs[k + 1..LevelEnd(vs, vs[k].depth, k + 1)], vs[k].depth + 1) == Children(o, depth, vs[k])
  {
    forall k | 0 <= k < |vs|
      ensures Tops(vs[k + 1..LevelEnd(vs, vs[k].depth, k + 1)], vs[k].depth + 1) == Children(o, depth, vs[k])
    {
      assert SubtreeAt(o, depth, vs, k);
      SubtreeLinksSlice(vs, k);
    }
  }

  lemma SubtreeLinksShift(pre: seq<Visit>, vs: seq<Visit>, k: nat)
    requires k < |vs|
    ensures (pre + vs)[|pre| + k] == vs[k]
    ensures SubtreeLinks(pre + vs, |pre| + k) == SubtreeLinks(vs, k)
  {
    assert (pre + vs)[|pre| + k] == vs[k];
    LevelEndShift(pre, vs, vs[k].depth, k + 1);
    TopsInShift(pre, vs, vs[k].depth + 1, k + 1, LevelEnd(vs, vs[k].depth, k + 1));
  }

  lemma SubtreeLinksPrefix(a: seq<Visit>, b: seq<Visit>, k: nat)
    requires k < |a|
    requires b != [] ==> b[0].depth <= a[k].depth
    ensures (a + b)[k] == a[k]
    ensures SubtreeLinks(a + b, k) == SubtreeLinks(a, k)
  {
    assert (a + b)[k] == a[k];
    LevelEndPrefix(a, b, a[k].depth, k + 1);
    TopsInPrefix(a, b, a[k].depth + 1, k + 1, LevelEnd(a, a[k].depth, k + 1));
  }

  /** A visit followed only by deeper ones: its subtree is everything after it. */
  lemma SubtreeLinksRoot(vs: seq<Visit>)
    requires |vs| > 0
    requires forall i :: 1 <= i < |vs| ==> vs[i].depth > vs[0].depth
    ensures SubtreeLinks(vs, 0) == Tops(vs[1..], vs[0].depth + 1)
  {
    LevelEndUnique(vs, vs[0].depth, 1, |vs|);
    TopsInShift([vs[0]], vs[1..], vs[0].depth + 1, 0, |vs| - 1);
    assert [vs[0]] + vs[1..] == vs;
    TopsInAll(vs[1..], vs[0].depth + 1);
  }

  lemma SubtreeShift(o: Oracles, depth: int, pre: seq<Visit>, vs: seq<Visit>, k: nat)
    requires k < |vs| && SubtreeAt(o, depth, vs, k)
    ensures SubtreeAt(o, depth, pre + vs, |pre| + k)
  {
    SubtreeLinksShift(pre, vs, k);
  }

  lemma SubtreePrefix(o: Oracles, depth: int, a: seq<Visit>, b: seq<Visit>, k: nat)
    requires k < |a| && SubtreeAt(o, depth, a, k)
    requires b != [] ==> b[0].depth <= a[k].depth
    ensures SubtreeAt(o, depth, a + b, k)
  {
    SubtreeLinksPrefix(a, b, k);
  }

  lemma SubtreeRoot(o: Oracles, depth: int, vs: seq<Visit>)
    requires |vs| > 0
    requires forall i :: 1 <= i < |vs| ==> vs[i].depth > vs[0].depth
    requires Tops(vs[1..], vs[0].depth + 1) == Children(o, depth, vs[0])
    ensures SubtreeAt(o, depth, vs, 0)
  {
    SubtreeLinksRoot(vs);
  }

  lemma PreOrderFront(o: Oracles, depth: int, a: seq<Visit>, b: seq<Visit>, k: nat)
    requires PreOrder(o, depth, a) && k < |a|
    requires b != [] ==> b[0].depth <= a[k].depth
    ensures SubtreeAt(o, depth, a + b, k)
  {
    assert SubtreeAt(o, depth, a, k);
    SubtreePrefix(o, depth, a, b, k);
  }

  lemma PreOrderBack(o: Oracles, depth: int, a: seq<Visit>, b: seq<Visit>, k: nat)
    requires PreOrder(o, depth, b) && k < |b|
    ensures SubtreeAt(o, depth, a + b, |a| + k)
  {
    assert SubtreeAt(o, depth, b, k);
    SubtreeShift(o, depth, a, b, k);
  }

  /** Two pre-order records, the second starting no deeper than any visit of the first. */
  lemma PreOrderAppend(o: Oracles, depth: int, a: seq<Visit>, b: seq<Visit>)
    requires PreOrder(o, depth, a) && PreOrder(o, depth, b)
    requires b != [] ==> forall i :: 0 <= i < |a| ==> b[0].depth <= a[i].depth
    ensures PreOrder(o, depth, a + b)
  {
    forall k | 0 <= k < |a + b|
      ensures SubtreeAt(o, depth, a + b, k)
    {
      if k < |a| {
        PreOrderFront(o, depth, a, b, k);
      } else {
        PreOrderBack(o, depth, a, b, k - |a|);
      }
    }
  }

  lemma SubtreeLinksTail(vs: seq<Visit>, k: nat)
    requires k + 1 < |vs|
    ensures vs[1..][k] == vs[k + 1]
    ensures SubtreeLinks(vs[1..], k) == SubtreeLinks(vs, k + 1)
  {
    SubtreeLinksShift([vs[0]], vs[1..], k);
    assert [vs[0]] + vs[1..] == vs;
  }

  lemma SubtreeTail(o: Oracles, depth: int, vs: seq<Visit>, k: nat)
    requires k + 1 < |vs| && SubtreeAt(o, depth, vs[1..], k)
    ensures SubtreeAt(o, depth, vs, k + 1)
  {
    SubtreeLinksTail(vs, k);
  }

  /** A first visit whose subtree is right, in front of a pre-order record. */
  lemma PreOrderUnder(o: Oracles, depth: int, vs: seq<Visit>)
    requires 0 < |vs| && SubtreeAt(o, depth, vs, 0) && PreOrder(o, depth, vs[1..])
    ensures PreOrder(o, depth, vs)
  {
    forall k | 0 < k < |vs|
      ensures SubtreeAt(o, depth, vs, k)
    {
      assert SubtreeAt(o, depth, vs[1..], k - 1);
      SubtreeTail(o, depth, vs, k - 1);
    }
  }

  /** A non-empty walk of a list starts with a visit at the starting level. */
  lemma VisitEachHead(o: Oracles, unit: SizeUnit, depth: int, urls: seq<string>, cur: int)
    requires VisitEach(o, unit, depth, urls, cur) != []
    ensures VisitEach(o, unit, depth, urls, cur)[0].depth == cur
  {
    var a := VisitUrl(o, unit, depth, urls[0], cur);
    assert a != [];
    assert (a + VisitEach(o, unit, depth, urls[1..], cur))[0] == a[0];
  }

  /** A page whose links are followed: its visit, then the walk of its links. */
  lemma FollowParts(o: Oracles, unit: SizeUnit, depth: int, url: string, cur: int)
    requires cur < depth && o.refetch(url).Some?
    ensures VisitUrl(o, unit, depth, url, cur) != []
    ensures VisitUrl(o, unit, depth, url, cur)[0] == Visit(cur, Measure(o, unit, url))
    ensures VisitUrl(o, unit, depth, url, cur)[1..]
         == VisitEach(o, unit, depth, ExtractAndNormalizeLinks(o.refetch(url).value, o.parse), cur + 1)
  {
    var rest := VisitEach(o, unit, depth, ExtractAndNormalizeLinks(o.refetch(url).value, o.parse), cur + 1);
    assert VisitUrl(o, unit, depth, url, cur) == [Visit(cur, Measure(o, unit, url))] + rest;
  }

  /** The links followed from a page's visit are the links of its second download. */
  lemma FollowChildren(o: Oracles, unit: SizeUnit, depth: int, url: string, cur: int)
    requires cur < depth && o.refetch(url).Some?
    ensures Children(o, depth, Visit(cur, Measure(o, unit, url)))
         == ExtractAndNormalizeLinks(o.refetch(url).value, o.parse)
  {
  }

  /** A page whose links are followed: the links, in order, are the visits one level down. */
  lemma FollowRoot(o: Oracles, unit: SizeUnit, depth: int, url: string, cur: int)
    requires cur < depth && o.refetch(url).Some?
    ensures VisitUrl(o, unit, depth, url, cur) != []
    ensures VisitUrl(o, unit, depth, url, cur)[1..]
         == VisitEach(o, unit, depth, ExtractAndNormalizeLinks(o.refetch(url).value, o.parse), cur + 1)
    ensures SubtreeAt(o, depth, VisitUrl(o, unit, depth, url, cur), 0)
  {
    var links := ExtractAndNormalizeLinks(o.refetch(url).value, o.parse);
    FollowParts(o, unit, depth, url, cur);
    FollowChildren(o, unit, depth, url, cur);
    VisitUrlShape(o, unit, depth, url, cur);
    VisitEachTops(o, unit, depth, links, cur + 1);
    SubtreeRoot(o, depth, VisitUrl(o, unit, depth, url, cur));
  }

  /** A page whose links are followed: its visit, then the pre-order walk of its links. */
  lemma FollowPreOrder(o: Oracles, unit: SizeUnit, depth: int, url: string, cur: int)
    requires cur < depth && o.refetch(url).Some?
    requires PreOrder(o, depth, VisitEach(o, unit, depth, ExtractAndNormalizeLinks(o.refetch(url).value, o.parse), cur + 1))
    ensures PreOrder(o, depth, VisitUrl(o, unit, depth, url, cur))
  {
    FollowRoot(o, unit, depth, url, cur);
    PreOrderUnder(o, depth, VisitUrl(o, unit, depth, url, cur));
  }

  /** A page whose links are not followed: its visit alone. */
  lemma LeafPreOrder(o: Oracles, unit: SizeUnit, depth: int, url: string, cur: int)
    requires cur <= depth && !(cur < depth && o.refetch(url).Some?)
    ensures PreOrder(o, depth, VisitUrl(o, unit, depth, url, cur))
  {
    var r := VisitUrl(o, unit, depth, url, cur);
    assert r == [Visit(cur, Measure(o, unit, url))];
    SubtreeRoot(o, depth, r);
  }

  /** The walk from a page is recorded in depth-first pre-order. */
  lemma {:induction false} VisitUrlPreOrder(o: Oracles, unit: SizeUnit, depth: int, url: string, cur: int)
    ensures PreOrder(o, depth, VisitUrl(o, unit, depth, url, cur))
    ensures Steps(VisitUrl(o, unit, depth, url, cur), cur)
    decreases Budget(cur, depth), 0, 0
  {
    VisitUrlSteps(o, unit, depth, url, cur);
    if cur < depth && o.refetch(url).Some? {
      VisitEachPreOrder(o, unit, depth, ExtractAndNormalizeLinks(o.refetch(url).value, o.parse), cur + 1);
      FollowPreOrder(o, unit, depth, url, cur);
    } else if cur <= depth {
      LeafPreOrder(o, unit, depth, url, cur);
    }
  }

  lemma {:induction false} VisitEachPreOrder(o: Oracles, unit: SizeUnit, depth: int, urls: seq<string>, cur: int)
    ensures PreOrder(o, depth, VisitEach(o, unit, depth, urls, cur))
    ensures Steps(VisitEach(o, unit, depth, urls, cur), cur)
    decreases Budget(cur, depth), 1, |urls|
  {
    VisitEachSteps(o, unit, depth, urls, cur);
    if urls != [] {
      var a := VisitUrl(o, unit, depth, urls[0], cur);
      var b := VisitEach(o, unit, depth, urls[1..], cur);
      VisitUrlPreOrder(o, unit, depth, urls[0], cur);
      VisitEachPreOrder(o, unit, depth, urls[1..], cur);
      if b != [] {
        VisitEachHead(o, unit, depth, urls[1..], cur);
      }
      PreOrderAppend(o, depth, a, b);
    }
  }

  /** Visit `k + 1` lies at most one level below visit `k`. */
  predicate StepAt(vs: seq<Visit>, k: nat)
    requires k + 1 < |vs|
  {
    vs[k + 1].depth <= vs[k].depth + 1
  }

  /**
   * No level is skipped on the way down: the record starts at level `cur`, and each visit lies
   * at most one level below the visit before it.
   */
  predicate Steps(vs: seq<Visit>, cur: int) {
    && (vs != [] ==> vs[0].depth == cur)
    && forall k {:trigger StepAt(vs, k)} :: 0 <= k < |vs| - 1 ==> StepAt(vs, k)
  }

  lemma StepsFront(a: seq<Visit>, b: seq<Visit>, cur: int, k: nat)
    requires Steps(a, cur) && k + 1 < |a|
    ensures StepAt(a + b, k)
  {
    assert StepAt(a, k);
    assert (a + b)[k] == a[k] && (a + b)[k + 1] == a[k + 1];
  }

  lemma StepsBack(a: seq<Visit>, b: seq<Visit>, cur: int, k: nat)
    requires Steps(b, cur) && k + 1 < |b|
    ensures StepAt(a + b, |a| + k)
  {
    assert StepAt(b, k);
    assert (a + b)[|a| + k] == b[k] && (a + b)[|a| + k + 1] == b[k + 1];
  }

  lemma StepsJoin(a: seq<Visit>, b: seq<Visit>, cur: int)
    requires a != [] && b != [] && a[|a| - 1].depth >= cur && b[0].depth == cur
    ensures StepAt(a + b, |a| - 1)
  {
    assert (a + b)[|a| - 1] == a[|a| - 1] && (a + b)[|a|] == b[0];
  }

  /** Two records from level `cur`, the first never above it, recorded one after the other. */
  lemma StepsAppend(a: seq<Visit>, b: seq<Visit>, cur: int)
    requires Steps(a, cur) && Steps(b, cur)
    requires forall i :: 0 <= i < |a| ==> a[i].depth >= cur
    ensures Steps(a + b, cur)
  {
    if a == [] {
      assert a + b == b;
    } else {
      assert (a + b)[0] == a[0];
      forall k | 0 <= k < |a + b| - 1
        ensures StepAt(a + b, k)
      {
        if k + 1 < |a| {
          StepsFront(a, b, cur, k);
        } else if k + 1 == |a| {
          StepsJoin(a, b, cur);
        } else {
          StepsBack(a, b, cur, k - |a|);
        }
      }
    }
  }

  /** A first visit followed by a record that starts one level below it. */
  lemma StepsUnder(vs: seq<Visit>)
    requires 0 < |vs| && Steps(vs[1..], vs[0].depth + 1)
    ensures Steps(vs, vs[0].depth)
  {
    forall k | 0 <= k < |vs| - 1
      ensures StepAt(vs, k)
    {
      if k == 0 {
        assert vs[1..][0] == vs[1];
      } else {
        assert StepAt(vs[1..], k - 1);
        assert vs[1..][k - 1] == vs[k] && vs[1..][k] == vs[k + 1];
      }
    }
  }

  /** The walk from a page skips no level on the way down. */
  lemma {:induction false} VisitUrlSteps(o: Oracles, unit: SizeUnit, depth: int, url: string, cur: int)
    ensures Steps(VisitUrl(o, unit, depth, url, cur), cur)
    decreases Budget(cur, depth), 0, 0
  {
    if cur < depth && o.refetch(url).Some? {
      VisitEachSteps(o, unit, depth, ExtractAndNormalizeLinks(o.refetch(url).value, o.parse), cur + 1);
      FollowParts(o, unit, depth, url, cur);
      StepsUnder(VisitUrl(o, unit, depth, url, cur));
    } else if cur <= depth {
      assert VisitUrl(o, unit, depth, url, cur) == [Visit(cur, Measure(o, unit, url))];
    }
  }

  lemma {:induction false} VisitEachSteps(o: Oracles, unit: SizeUnit, depth: int, urls: seq<string>, cur: int)
    ensures Steps(VisitEach(o, unit, depth, urls, cur), cur)
    decreases Budget(cur, depth), 1, |urls|
  {
    if urls != [] {
      VisitUrlSteps(o, unit, depth, urls[0], cur);
      VisitEachSteps(o, unit, depth, urls[1..], cur);
      StepsAppend(VisitUrl(o, unit, depth, urls[0], cur), VisitEach(o, unit, depth, urls[1..], cur), cur);
    }
  }

  /**
   * `ProcessSites` records its results in depth-first pre-order: right after each page come
   * the walks of the links found on it, and those links, in order, are exactly the visits one
   * level down before the walk returns to the page's level. The record starts at level 1 and
   * never goes down more than one level at a time, so nothing else hides in a subtree.
   */
  lemma ProcessSitesPreOrder(o: Oracles, unit: SizeUnit, depth: int, urls: seq<string>)
    ensures PreOrder(o, depth, VisitEach(o, unit, depth, urls, 1))
    ensures Steps(VisitEach(o, unit, depth, urls, 1), 1)
  {
    VisitEachPreOrder(o, unit, depth, urls, 1);
  }
}

=== FILE: text.dfy ===
/** Character classes and string helpers shared by the scanner, the formatters and the flag parser. */
module Text {

  /** The characters of RE2's `\s` class: tab, newline, form feed, carriage return and space. */
  predicate IsSpace(c: char) {
    c == '\t' || c == '\n' || c == '\U{C}' || c == '\r' || c == ' '
  }

  /** `p` is a prefix of `s` (Go's `strings.HasPrefix`). */
  predicate HasPrefix(s: string, p: string) {
    |p| <= |s| && s[..|p|] == p
  }

  predicate IsAsciiUpper(c: char) {
    'A' <= c <= 'Z'
  }

  /** Lower-cases one ASCII letter and leaves every other character alone. */
  function LowerChar(c: char): (d: char)
    ensures !IsAsciiUpper(d)
    ensures !IsAsciiUpper(c) ==> d == c
    ensures IsAsciiUpper(c) ==> d as int - c as int == 'a' as int - 'A' as int
  {
    if IsAsciiUpper(c) then (c as int - 'A' as int + 'a' as int) as char else c
  }

  /** ASCII lower-casing of a whole string, character by character. */
  function Lower(s: string): (r: string)
    ensures |r| == |s|
    ensures forall i :: 0 <= i < |s| ==> r[i] == LowerChar(s[i])
  {
    seq(|s|, i requires 0 <= i < |s| => LowerChar(s[i]))
  }

  /** Number of occurrences of `c` in `s`. */
  function Count(s: string, c: char): (n: nat)
    ensures n <= |s|
    ensures c !in s ==> n == 0
    decreases |s|
  {
    if |s| == 0 then 0 else (if s[0] == c then 1 else 0) + Count(s[1..], c)
  }

  /** Counting distributes over concatenation. */
  lemma {:induction false} CountAppend(a: string, b: string, c: char)
    ensures Count(a + b, c) == Count(a, c) + Count(b, c)
    decreases |a|
  {
    if |a| == 0 {
      assert a + b == b;
    } else {
      assert (a + b)[1..] == a[1..] + b;
      CountAppend(a[1..], b, c);
    }
  }

  /** Position of the first `c` in `s`, or `|s|` when `c` does not occur. */
  function IndexOf(s: string, c: char): (i: nat)
    ensures i <= |s|
    ensures i < |s| ==> s[i] == c
    ensures forall k :: 0 <= k < i ==> s[k] != c
    decreases |s|
  {
    if |s| == 0 || s[0] == c then 0 else 1 + IndexOf(s[1..], c)
  }

  /** The first `c` in `a + [c] + b` is the one after `a` when `a` has none. */
  lemma {:induction false} IndexOfAfter(a: string, c: char, b: string)
    requires c !in a
    ensures IndexOf(a + [c] + b, c) == |a|
    decreases |a|
  {
    if |a| > 0 {
      assert (a + [c] + b)[1..] == a[1..] + [c] + b;
      IndexOfAfter(a[1..], c, b);
    }
  }
}

=== FILE: url_regex.dfy ===
/**
 * The link pattern `https?://[^\s"']+` and Go's `FindAllString(line, -1)` over it, written
 * as an explicit scanner. RE2's leftmost-first search with the greedy `s?` and `+` picks, at
 * the leftmost position where some match starts, the longest match there; the next search
 * resumes where that match ended.
 */
module UrlRegex {
  import opened Wrappers
  import opened Text

  /** Characters the pattern's run `[^\s"']` cannot contain. */
  predicate IsStop(c: char) {
    IsSpace(c) || c == '"' || c == '\''
  }

  const Http: string := "http://"
  const Https: string := "https://"

  /** `w` is a word of the language `https?://[^\s"']+`. */
  predicate IsCandidate(w: string) {
    && ((HasPrefix(w, Https) && |w| > |Https|) || (HasPrefix(w, Http) && |w| > |Http|))
    && forall k :: 0 <= k < |w| ==> !IsStop(w[k])
  }

  /** The text `p` occurs in `s` at position `i`. */
  predicate TextAt(s: string, i: nat, p: string) {
    i + |p| <= |s| && s[i..i + |p|] == p
  }

  /** A pattern match in a line: the text `s[start..end]`. */
  datatype Span = Span(start: nat, end: nat)

  /** End of the maximal run of non-stop characters that begins at `i`. */
  function RunEnd(s: string, i: nat): (j: nat)
    requires i <= |s|
    ensures i <= j <= |s|
    ensures j == |s| || IsStop(s[j])
    decreases |s| - i
  {
    if i == |s| || IsStop(s[i]) then i else RunEnd(s, i + 1)
  }

  /** The run holds no stop character. */
  lemma {:induction false} RunEndChars(s: string, i: nat)
    requires i <= |s|
    ensures forall k :: i <= k < RunEnd(s, i) ==> !IsStop(s[k])
    decreases |s| - i
  {
    if i < |s| && !IsStop(s[i]) {
      RunEndChars(s, i + 1);
    }
  }

  /** A scheme followed by a non-empty run without stop characters is a candidate. */
  lemma RunIsCandidate(s: string, i: nat, p: string, j: nat)
    requires p == Https || p == Http
    requires TextAt(s, i, p) && i + |p| < j <= |s|
    requires forall k :: i + |p| <= k < j ==> !IsStop(s[k])
    ensures IsCandidate(s[i..j])
  {
    var w := s[i..j];
    assert w[..|p|] == p;
    forall k | 0 <= k < |w|
      ensures !IsStop(w[k])
    {
      if k < |p| {
        assert w[k] == p[k];
      } else {
        assert w[k] == s[i + k];
      }
    }
  }

  /**
   * The match the pattern makes when it starts at `i`, if any: `https://` is preferred over
   * `http://`, and the run after `://` is taken as far as it goes.
   */
  function MatchEnd(s: string, i: nat): (r: Option<nat>)
    requires i <= |s|
    ensures r.Some? ==> i < r.value <= |s|
    ensures r.Some? ==> r.value == |s| || IsStop(s[r.value])
    ensures r.Some? ==> (TextAt(s, i, Https) && i + |Https| < r.value) || (TextAt(s, i, Http) && i + |Http| < r.value)
  {
    if TextAt(s, i, Https) && i + |Https| < |s| && !IsStop(s[i + |Https|]) then Some(RunEnd(s, i + |Https|))
    else if TextAt(s, i, Http) && i + |Http| < |s| && !IsStop(s[i + |Http|]) then Some(RunEnd(s, i + |Http|))
    else None
  }

  /** What `MatchEnd` reports is a word of the pattern's language. */
  lemma MatchEndSound(s: string, i: nat)
    requires i <= |s|
    ensures MatchEnd(s, i).Some? ==> IsCandidate(s[i..MatchEnd(s, i).value])
  {
    if TextAt(s, i, Https) && i + |Https| < |s| && !IsStop(s[i + |Https|]) {
      RunEndChars(s, i + |Https|);
      RunIsCandidate(s, i, Https, RunEnd(s, i + |Https|));
    } else if TextAt(s, i, Http) && i + |Http| < |s| && !IsStop(s[i + |Http|]) {
      RunEndChars(s, i + |Http|);
      RunIsCandidate(s, i, Http, RunEnd(s, i + |Http|));
    }
  }

  /** `MatchEnd` finds nothing at `i` exactly when no candidate starts at `i`. */
  lemma MatchEndNone(s: string, i: nat)
    requires i <= |s|
    ensures MatchEnd(s, i).None? <==> forall j :: i < j <= |s| ==> !IsCandidate(s[i..j])
  {
    MatchEndSound(s, i);
    if MatchEnd(s, i).None? {
      forall j | i < j <= |s|
        ensures !IsCandidate(s[i..j])
      {
        var w := s[i..j];
        if HasPrefix(w, Https) && |w| > |Https| {
          assert s[i..i + |Https|] == w[..|Https|];
          assert w[|Https|] == s[i + |Https|];
        } else if HasPrefix(w, Http) && |w| > |Http| {
          assert s[i..i + |Http|] == w[..|Http|];
          assert w[|Http|] == s[i + |Http|];
        }
      }
    }
  }

  /** No character of a candidate is a stop character. */
  lemma CandidateChars(s: string, i: nat, j: nat)
    requires i <= j <= |s| && IsCandidate(s[i..j])
    ensures forall k :: i <= k < j ==> !IsStop(s[k])
  {
    forall k | i <= k < j
      ensures !IsStop(s[k])
    {
      assert s[k] == s[i..j][k - i];
    }
  }

  /** A match is the longest candidate that starts where it starts. */
  lemma MatchEndLongest(s: string, i: nat, j: nat)
    requires i < j <= |s| && IsCandidate(s[i..j])
    ensures MatchEnd(s, i).Some? && j <= MatchEnd(s, i).value
  {
    MatchEndNone(s, i);
    CandidateChars(s, i, j);
  }

  /** Some match starts inside one of the spans `r`. */
  ghost predicate Claimed(r: seq<Span>, p: nat) {
    exists k :: 0 <= k < |r| && r[k].start <= p < r[k].end
  }

  /**
   * `FindAllString` from position `i`: the successive non-overlapping matches, left to right,
   * each one the match the pattern makes at its start.
   */
  function SpansFrom(s: string, i: nat): (r: seq<Span>)
    requires i <= |s|
    ensures forall k :: 0 <= k < |r| ==> i <= r[k].start < r[k].end <= |s|
    decreases |s| - i
  {
    if i == |s| then []
    else
      match MatchEnd(s, i)
      case Some(j) => [Span(i, j)] + SpansFrom(s, j)
      case None => SpansFrom(s, i + 1)
  }

  /** Where the scan resumes after looking at position `i`. */
  function NextStart(s: string, i: nat): (n: nat)
    requires i < |s|
    ensures i < n <= |s|
  {
    match MatchEnd(s, i)
    case Some(j) => j
    case None => i + 1
  }

  /** A match at `i` is reported and the scan resumes at its end. */
  lemma SpansFromSome(s: string, i: nat, j: nat)
    requires i < |s| && MatchEnd(s, i) == Some(j)
    ensures SpansFrom(s, i) == [Span(i, j)] + SpansFrom(s, j)
  {
  }

  /** Without a match at `i` the scan moves one character on. */
  lemma SpansFromNone(s: string, i: nat)
    requires i < |s| && MatchEnd(s, i).None?
    ensures SpansFrom(s, i) == SpansFrom(s, i + 1)
  {
  }

  /** Every reported span is exactly the match the pattern makes at its start. */
  lemma {:induction false} SpansAreMatches(s: string, i: nat, k: nat)
    requires i <= |s| && k < |SpansFrom(s, i)|
    ensures MatchEnd(s, SpansFrom(s, i)[k].start) == Some(SpansFrom(s, i)[k].end)
    decreases |s| - i
  {
    match MatchEnd(s, i)
    case Some(j) =>
      SpansFromSome(s, i, j);
      if k > 0 {
        SpansAreMatches(s, j, k - 1);
      }
    case None =>
      SpansFromNone(s, i);
      SpansAreMatches(s, i + 1, k);
  }

  /** Spans that do not overlap and come in text order. */
  predicate Ordered(r: seq<Span>) {
    forall a, b :: 0 <= a < b < |r| ==> r[a].end <= r[b].start
  }

  /** A span that ends before every span of an ordered list can head it. */
  lemma ConsOrdered(x: Span, rest: seq<Span>)
    requires Ordered(rest)
    requires forall k :: 0 <= k < |rest| ==> x.end <= rest[k].start
    ensures Ordered([x] + rest)
  {
    var r := [x] + rest;
    forall a, b | 0 <= a < b < |r|
      ensures r[a].end <= r[b].start
    {
      assert r[b] == rest[b - 1];
      if a > 0 {
        assert r[a] == rest[a - 1];
      }
    }
  }

  /** The reported spans do not overlap and come in text order. */
  lemma {:induction false} SpansOrdered(s: string, i: nat)
    requires i <= |s|
    ensures Ordered(SpansFrom(s, i))
    decreases |s| - i
  {
    if i < |s| {
      match MatchEnd(s, i)
      case None =>
        SpansFromNone(s, i);
        SpansOrdered(s, i + 1);
      case Some(j) =>
        SpansFromSome(s, i, j);
        SpansOrdered(s, j);
        ConsOrdered(Span(i, j), SpansFrom(s, j));
    }
  }

  /**
   * No match is skipped: every position from `i` on where the pattern could match lies inside
   * a reported span, so each span starts at the leftmost position still available.
   */
  lemma {:induction false} SpansComplete(s: string, i: nat, p: nat)
    requires i <= p < |s| && MatchEnd(s, p).Some?
    ensures Claimed(SpansFrom(s, i), p)
    decreases |s| - i, 1
  {
    if MatchEnd(s, i).None? {
      CompleteNone(s, i, p);
    } else {
      CompleteSome(s, i, MatchEnd(s, i).value, p);
    }
  }

  lemma {:induction false} CompleteNone(s: string, i: nat, p: nat)
    requires i <= p < |s| && MatchEnd(s, p).Some? && MatchEnd(s, i).None?
    ensures Claimed(SpansFrom(s, i), p)
    decreases |s| - i, 0
  {
    SpansFromNone(s, i);
    SpansComplete(s, i + 1, p);
  }

  /** A span covering `p` claims it at the head of any list. */
  lemma ClaimedHead(x: Span, rest: seq<Span>, p: nat)
    requires x.start <= p < x.end
    ensures Claimed([x] + rest, p)
  {
    assert ([x] + rest)[0] == x;
  }

  /** A claim made by the tail of a list stands for the whole list. */
  lemma ClaimedCons(x: Span, rest: seq<Span>, p: nat)
    requires Claimed(rest, p)
    ensures Claimed([x] + rest, p)
  {
    var k :| 0 <= k < |rest| && rest[k].start <= p < rest[k].end;
    assert ([x] + rest)[k + 1] == rest[k];
  }

  lemma {:induction false} CompleteSome(s: string, i: nat, j: nat, p: nat)
    requires i <= p < |s| && MatchEnd(s, p).Some? && MatchEnd(s, i) == Some(j)
    ensures Claimed(SpansFrom(s, i), p)
    decreases |s| - i, 0
  {
    SpansFromSome(s, i, j);
    if p < j {
      ClaimedHead(Span(i, j), SpansFrom(s, j), p);
    } else {
      SpansComplete(s, j, p);
      ClaimedCons(Span(i, j), SpansFrom(s, j), p);
    }
  }

  /** Every span lies within a string of length `n`. */
  predicate InBounds(sp: seq<Span>, n: nat) {
    forall k :: 0 <= k < |sp| ==> sp[k].start <= sp[k].end <= n
  }

  /** The texts of the spans `sp` in `s`. */
  function Texts(s: string, sp: seq<Span>): (r: seq<string>)
    requires InBounds(sp, |s|)
    ensures |r| == |sp|
    ensures forall k :: 0 <= k < |sp| ==> r[k] == s[sp[k].start..sp[k].end]
  {
    seq(|sp|, k requires 0 <= k < |sp| => s[sp[k].start..sp[k].end])
  }

  /** `regexp.FindAllString(s, -1)` for the link pattern. */
  function FindAll(s: string): (r: seq<string>)
    ensures forall k :: 0 <= k < |r| ==> IsCandidate(r[k])
  {
    var sp := SpansFrom(s, 0);
    assert forall k :: 0 <= k < |sp| ==> IsCandidate(s[sp[k].start..sp[k].end]) by {
      forall k | 0 <= k < |sp|
        ensures IsCandidate(s[sp[k].start..sp[k].end])
      {
        SpansAreMatches(s, 0, k);
        MatchEndSound(s, sp[k].start);
      }
    }
    Texts(s, sp)
  }

  /** A line with a match contains `http://` or `https://` where that match starts. */
  lemma MatchesNeedScheme(s: string)
    ensures FindAll(s) != [] ==> exists p :: 0 <= p < |s| && (TextAt(s, p, Https) || TextAt(s, p, Http))
  {
    var sp := SpansFrom(s, 0);
    if |sp| > 0 {
      var p := sp[0].start;
      SpansAreMatches(s, 0, 0);
      assert TextAt(s, p, Https) || TextAt(s, p, Http);
    }
  }

  /** A line in which neither `http://` nor `https://` occurs has no match. */
  lemma NoSchemeNoMatch(s: string)
    requires forall p :: 0 <= p < |s| ==> !TextAt(s, p, Http) && !TextAt(s, p, Https)
    ensures FindAll(s) == []
  {
    MatchesNeedScheme(s);
  }

  // ---------------------------------------------------------------------------------------
  // A stop character separates the text before it from the text after it: scanning the
  // whole text finds the same matches as scanning the two pieces.
  // ---------------------------------------------------------------------------------------

  lemma {:induction false} RunEndTruncate(s: string, p: nat, k: nat)
    requires p <= k < |s| && IsStop(s[k])
    ensures RunEnd(s, p) == RunEnd(s[..k], p)
    decreases k - p
  {
    if p < k && !IsStop(s[p]) {
      RunEndTruncate(s, p + 1, k);
    }
  }

  /** A scheme occurrence never covers a stop character. */
  lemma TextAtAvoidsStop(s: string, i: nat, p: string)
    requires p == Https || p == Http
    ensures TextAt(s, i, p) ==> forall k :: i <= k < i + |p| ==> !IsStop(s[k])
  {
    if TextAt(s, i, p) {
      forall k | i <= k < i + |p|
        ensures !IsStop(s[k])
      {
        assert s[k] == s[i..i + |p|][k - i];
      }
    }
  }

  lemma MatchEndTruncate(s: string, i: nat, k: nat)
    requires i <= k < |s| && IsStop(s[k])
    ensures MatchEnd(s, i) == MatchEnd(s[..k], i)
  {
    var t := s[..k];
    TextAtAvoidsStop(s, i, Https);
    TextAtAvoidsStop(s, i, Http);
    if i + |Https| <= k {
      assert t[i..i + |Https|] == s[i..i + |Https|];
    }
    if i + |Http| <= k {
      assert t[i..i + |Http|] == s[i..i + |Http|];
    }
    if i + |Https| < k {
      RunEndTruncate(s, i + |Https|, k);
    }
    if i + |Http| < k {
      RunEndTruncate(s, i + |Http|, k);
    }
  }

  /** No match starts at a stop character. */
  lemma NoMatchAtStop(s: string, k: nat)
    requires k < |s| && IsStop(s[k])
    ensures MatchEnd(s, k).None?
  {
    TextAtAvoidsStop(s, k, Https);
    TextAtAvoidsStop(s, k, Http);
  }

  lemma ConsAssoc(x: Span, a: seq<Span>, b: seq<Span>)
    ensures [x] + (a + b) == ([x] + a) + b
  {
  }

  /** A match that starts before a stop ends before it, and the text cut at the stop sees it too. */
  lemma TruncatedSome(s: string, i: nat, k: nat, j: nat)
    requires i < k < |s| && IsStop(s[k]) && MatchEnd(s, i) == Some(j)
    ensures j <= k
    ensures SpansFrom(s[..k], i) == [Span(i, j)] + SpansFrom(s[..k], j)
  {
    MatchEndTruncate(s, i, k);
    MatchEndSound(s, i);
    CandidateChars(s, i, j);
    SpansFromSome(s[..k], i, j);
  }

  lemma SplitStepSome(s: string, i: nat, k: nat, j: nat)
    requires i < k < |s| && IsStop(s[k]) && MatchEnd(s, i) == Some(j)
    requires j <= k ==> SpansFrom(s, j) == SpansFrom(s[..k], j) + SpansFrom(s, k + 1)
    ensures SpansFrom(s, i) == SpansFrom(s[..k], i) + SpansFrom(s, k + 1)
  {
    TruncatedSome(s, i, k, j);
    SpansFromSome(s, i, j);
    ConsAssoc(Span(i, j), SpansFrom(s[..k], j), SpansFrom(s, k + 1));
  }

  lemma SplitStepNone(s: string, i: nat, k: nat)
    requires i < k < |s| && IsStop(s[k]) && MatchEnd(s, i).None?
    requires SpansFrom(s, i + 1) == SpansFrom(s[..k], i + 1) + SpansFrom(s, k + 1)
    ensures SpansFrom(s, i) == SpansFrom(s[..k], i) + SpansFrom(s, k + 1)
  {
    MatchEndTruncate(s, i, k);
    SpansFromNone(s, i);
    SpansFromNone(s[..k], i);
  }

  lemma SplitBase(s: string, k: nat)
    requires k < |s| && IsStop(s[k])
    ensures SpansFrom(s, k) == SpansFrom(s[..k], k) + SpansFrom(s, k + 1)
  {
    var t := s[..k];
    NoMatchAtStop(s, k);
    SpansFromNone(s, k);
    assert |t| == k;
    assert SpansFrom(t, |t|) == [];
  }

  /** The matches from `i` on are those of the text before the stop at `k`, then those after it. */
  lemma {:induction false} SpansSplitAtStop(s: string, i: nat, k: nat)
    requires i <= k < |s| && IsStop(s[k])
    ensures SpansFrom(s, i) == SpansFrom(s[..k], i) + SpansFrom(s, k + 1)
    decreases k - i
  {
    if i == k {
      SplitBase(s, k);
    } else {
      match MatchEnd(s, i)
      case Some(j) =>
        MatchEndSound(s, i);
        CandidateChars(s, i, j);
        if j <= k {
          SpansSplitAtStop(s, j, k);
        }
        SplitStepSome(s, i, k, j);
      case None =>
        SpansSplitAtStop(s, i + 1, k);
        SplitStepNone(s, i, k);
    }
  }

  lemma {:induction false} RunEndShift(s: string, d: nat, p: nat)
    requires d <= p <= |s|
    ensures RunEnd(s, p) == RunEnd(s[d..], p - d) + d
    decreases |s| - p
  {
    if p < |s| && !IsStop(s[p]) {
      RunEndShift(s, d, p + 1);
    }
  }

  lemma TextAtShift(s: string, d: nat, p: nat, w: string)
    requires d <= p <= |s|
    ensures TextAt(s, p, w) <==> TextAt(s[d..], p - d, w)
  {
    if p + |w| <= |s| {
      assert s[d..][p - d..p - d + |w|] == s[p..p + |w|];
    }
  }

  lemma MatchEndShift(s: string, d: nat, p: nat)
    requires d <= p <= |s|
    ensures MatchEnd(s, p).Some? <==> MatchEnd(s[d..], p - d).Some?
    ensures MatchEnd(s, p).Some? ==> MatchEnd(s, p).value == MatchEnd(s[d..], p - d).value + d
  {
    TextAtShift(s, d, p, Https);
    TextAtShift(s, d, p, Http);
    if p + |Https| < |s| {
      assert s[d..][p - d + |Https|] == s[p + |Https|];
      RunEndShift(s, d, p + |Https|);
    }
    if p + |Http| < |s| {
      assert s[d..][p - d + |Http|] == s[p + |Http|];
      RunEndShift(s, d, p + |Http|);
    }
  }

  /** The matched texts from position `i` on. */
  function TextsFrom(s: string, i: nat): seq<string>
    requires i <= |s|
  {
    Texts(s, SpansFrom(s, i))
  }

  /** A match at `i` contributes its text, and the scan resumes at its end. */
  lemma TextsFromSome(s: string, i: nat, j: nat)
    requires i < |s| && MatchEnd(s, i) == Some(j)
    ensures TextsFrom(s, i) == [s[i..j]] + TextsFrom(s, j)
  {
    var rest := SpansFrom(s, j);
    SpansFromSome(s, i, j);
    var a := TextsFrom(s, i);
    var b := [s[i..j]] + TextsFrom(s, j);
    assert |a| == |b|;
    forall m | 0 <= m < |a|
      ensures a[m] == b[m]
    {
      if m > 0 {
        assert SpansFrom(s, i)[m] == rest[m - 1];
      }
    }
  }

  lemma ShiftStepNone(s: string, d: nat, i: nat)
    requires d <= i < |s| && MatchEnd(s, i).None?
    requires TextsFrom(s, i + 1) == TextsFrom(s[d..], i + 1 - d)
    ensures TextsFrom(s, i) == TextsFrom(s[d..], i - d)
  {
    MatchEndShift(s, d, i);
    SpansFromNone(s, i);
    SpansFromNone(s[d..], i - d);
  }

  /** The match at `i` is seen at `i - d` in the suffix, with the same text. */
  lemma ShiftedSome(s: string, d: nat, i: nat, j: nat)
    requires d <= i < |s| && MatchEnd(s, i) == Some(j)
    ensures TextsFrom(s[d..], i - d) == [s[i..j]] + TextsFrom(s[d..], j - d)
  {
    var t := s[d..];
    MatchEndShift(s, d, i);
    TextsFromSome(t, i - d, j - d);
    assert t[i - d..j - d] == s[i..j];
  }

  lemma ShiftStepSome(s: string, d: nat, i: nat, j: nat)
    requires d <= i < |s| && MatchEnd(s, i) == Some(j)
    requires TextsFrom(s, j) == TextsFrom(s[d..], j - d)
    ensures TextsFrom(s, i) == TextsFrom(s[d..], i - d)
  {
    TextsFromSome(s, i, j);
    ShiftedSome(s, d, i, j);
  }

  lemma ShiftStep(s: string, d: nat, i: nat)
    requires d <= i < |s|
    requires TextsFrom(s, NextStart(s, i)) == TextsFrom(s[d..], NextStart(s, i) - d)
    ensures TextsFrom(s, i) == TextsFrom(s[d..], i - d)
  {
    var n := NextStart(s, i);
    if MatchEnd(s, i).None? {
      assert n == i + 1;
      ShiftStepNone(s, d, i);
    } else {
      var j := MatchEnd(s, i).value;
      assert n == j;
      ShiftStepSome(s, d, i, j);
    }
  }

  /** Scanning a suffix finds the same texts as scanning the whole text from the suffix's start. */
  lemma {:induction false} TextsShift(s: string, d: nat, i: nat)
    requires d <= i <= |s|
    ensures TextsFrom(s, i) == TextsFrom(s[d..], i - d)
    decreases |s| - i
  {
    if i == |s| {
      var t := s[d..];
      assert |t| == i - d;
      assert SpansFrom(t, |t|) == [];
      assert SpansFrom(s, |s|) == [];
    } else {
      TextsShift(s, d, NextStart(s, i));
      ShiftStep(s, d, i);
    }
  }

  lemma TextsAppend(s: string, a: seq<Span>, b: seq<Span>)
    requires InBounds(a, |s|) && InBounds(b, |s|)
    ensures InBounds(a + b, |s|)
    ensures Texts(s, a + b) == Texts(s, a) + Texts(s, b)
  {
    assert InBounds(a + b, |s|) by {
      forall k | 0 <= k < |a + b|
        ensures (a + b)[k].start <= (a + b)[k].end <= |s|
      {
        if k >= |a| {
          assert (a + b)[k] == b[k - |a|];
        }
      }
    }
  }

  lemma TextsPrefix(s: string, sp: seq<Span>, k: nat)
    requires k <= |s| && InBounds(sp, k)
    ensures Texts(s, sp) == Texts(s[..k], sp)
  {
    forall m | 0 <= m < |sp|
      ensures s[sp[m].start..sp[m].end] == s[..k][sp[m].start..sp[m].end]
    {
    }
  }

  /**
   * With a stop character at `k`, the matches of `s` are the matches of the text before `k`
   * followed by the matches of the text after it.
   */
  lemma FindAllSplit(s: string, k: nat)
    requires k < |s| && IsStop(s[k])
    ensures FindAll(s) == FindAll(s[..k]) + FindAll(s[k + 1..])
  {
    var left := SpansFrom(s[..k], 0);
    SpansSplitAtStop(s, 0, k);
    TextsPrefix(s, left, k);
    TextsAppend(s, left, SpansFrom(s, k + 1));
    TextsShift(s, k + 1, k + 1);
  }

  /** Matches cannot include the stop character that ends a text. */
  lemma FindAllDropLast(s: string)
    requires |s| > 0 && IsStop(s[|s| - 1])
    ensures FindAll(s) == FindAll(s[..|s| - 1])
  {
    FindAllSplit(s, |s| - 1);
    assert s[|s|..] == [];
    assert SpansFrom(s[|s|..], 0) == [];
  }
}

=== FILE: wrappers.dfy ===
/** Failure-carrying datatypes used across the model. */
module Wrappers {

  /** An optional value: `None` where the program has nothing (a failed download, a URL that does not parse). */
  datatype Option<+T> = None | Some(value: T)

  /** A value or the reason there is none: used for the fatal start-up checks of the command line. */
  datatype Result<+R, +E> = Success(value: R) | Failure(error: E)
}
